=== FILE: README.md ===
# Trucking tycoon simulation core, in Dafny

This project models the state machine at the heart of a browser logistics game.
The game reducer (`gameReducer` in `src/context/GameContext.tsx`) takes the
whole game state and one action, and returns the next state. The actions:

- **TICK** advances the game clock. It charges loan payments once a simulated
  day has passed. It walks every travelling truck along its waypoint route,
  hands a truck that reaches its pickup city over to the cargo leg, and pays
  for finished jobs.
- **TOGGLE_PAUSE** and **SET_SPEED** change the pause flag and the speed
  multiplier.
- **ADD_CONTRACT** adds a contract to the marketplace.
- **BUY_TRUCK** adds a truck and charges for it.
- **ASSIGN_JOB** and **ROUTE_PLANNED** assign a contract to a truck and then
  start the truck on its route.
- **TAKE_LOAN** and **REPAY_LOAN** borrow and repay money.

The model also covers these helpers:

- the contract board's `handleAssign` leg decision (deadhead leg or direct
  cargo leg) and its `getBestAvailableTruck` selection;
- `lerp`;
- the planar helpers `calculateDistance` and `getClosestCity`.

Modules follow the program's structure:

| file | module | models |
|---|---|---|
| `wrappers.dfy` | `Wrappers` | optional values (`undefined` fields) |
| `seqs.dfy` | `Seqs` | `Array.find` and `Array.filter` over ids |
| `types.dfy` | `Types` | the records of `src/types/index.ts`, the city catalogue lookups |
| `geo.dfy` | `Geo` | the great-circle distance as a parameter, `calculateDistance`, `getClosestCity` |
| `movement.dfy` | `Movement` | `lerp` and the waypoint walk of a tick |
| `ledger.dfy` | `Ledger` | TAKE_LOAN, REPAY_LOAN and the daily loan charge |
| `simulation.dfy` | `Simulation` | TICK: one truck, the fleet, the whole state |
| `conservation.dfy` | `Conservation` | the value a tick conserves |
| `jobs.dfy` | `Jobs` | ASSIGN_JOB and ROUTE_PLANNED |
| `reducer.dfy` | `Reducer` | the reducer's dispatch over all actions |
| `contract_board.dfy` | `ContractBoard` | `getBestAvailableTruck` and `handleAssign` |

Money, time and coordinates are `real`. Optional fields are `Option`. The
great-circle distance `getDistance` is a parameter `dist` of type `Distance`.
Its one assumed property is that it is never negative. The city catalogue
(`CITIES`) is a parameter too, and so are the ids the source derives from
`Date.now()`.

In these places the code's behaviour is easy to misread; the model follows the
code:

- A tick of zero time is not always the identity. It records the accrual time
  even when the field was absent or 0. It writes a route index of 0 for a
  travelling truck that had none. And a truck whose route index already stood
  at the end finishes its leg. `Simulation.AdvanceByZero` states the conditions
  under which a zero tick changes nothing.
- A truck is IDLE exactly when it holds no route and no contract, and ticks
  keep this (`Simulation.AdvanceKeepsIdleExactlyUnbound`). ASSIGN_JOB breaks
  it on purpose: the truck stays IDLE while holding its contract until
  ROUTE_PLANNED arrives.
- BUY_TRUCK charges 50000 whatever the balance. Only the fleet panel's button
  checks the balance, not the reducer (`Reducer.BuyTruckUnchecked`).
- ASSIGN_JOB does not check that the truck exists. It binds every truck with
  the id, and the contract joins the active list even when no truck has the id.
- Every truck steps against the active list as it stood at the start of the
  tick. Two trucks holding the same contract that both finish in one tick are
  both paid, and the reward is credited twice
  (`Simulation.CollectCountsPayments`).
- The end of a leg sets the route index to 0 rather than clearing it. It keeps
  any held second leg (`pendingRoutePath`).
- REPAY_LOAN removes every loan with the id and charges the principal of the
  first one only.
- The daily charge never lowers a loan's `remainingAmount`. However many days
  one tick spans, it charges one day.

## Model

| member | source | states |
|---|---|---|
| Seqs.Find | src/context/GameContext.tsx:261 | `Array.find` by id: the result is the first element with the key, and nothing is found exactly when no element has it |
| Seqs.Reject | src/context/GameContext.tsx:269 | `Array.filter` on ids: every element whose id is not listed is kept exactly as often as it occurs, every element whose id is listed is dropped, and the list shrinks when one is |
| Geo.SquaredDistanceSymmetric | src/utils/geoUtils.ts:7-11 | the planar distance does not depend on the order of its arguments |
| Geo.SquaredDistance | src/utils/geoUtils.ts:7-11 | `calculateDistance` squared: the planar distance in degrees, never negative |
| Geo.SquaredDistanceZero | src/utils/geoUtils.ts:7-11 | a point is at distance 0 from itself |
| Geo.ClosestCity | src/utils/geoUtils.ts:16-31 | "Unknown" for an empty list; otherwise the name of the first city at minimum distance from the point |
| Geo.FirstClosestUnique | src/utils/geoUtils.ts:22-28 | the first nearest city is unique, so the result of `getClosestCity` is determined |
| Movement.Lerp | src/context/GameContext.tsx:43-45 | with a ratio in [0, 1] the interpolated value lies between the two ends, in either order |
| Movement.LerpPoint | src/context/GameContext.tsx:103-106 | the point a fraction of the way between two points: the first point at 0, the second at 1, and for fractions in [0, 1] each coordinate lies between those of the two ends |
| Movement.PathLength | src/context/GameContext.tsx:92-100 | the remaining length of a route from a position and index is never negative |
| Movement.Walk | src/context/GameContext.tsx:91-109 | the walk moves the index forward but never past the route; it stops early only when the budget is spent; when it reaches the end it stands on the last waypoint with the route's length taken from the budget; a budget larger than the remaining length always reaches the end |
| Movement.WalkStopsOnSegment | src/context/GameContext.tsx:101-107 | a walk that stops short of the end stands between the waypoint it last reached (or its start, if it reached none) and the next waypoint, at a fraction below 1 of the way |
| Ledger.TotalDailyPayment | src/context/GameContext.tsx:72-78 | the day's charge of a loan list: nothing for no loans, and never negative when no loan has a negative payment |
| Ledger.TotalDailyPaymentAppend | src/context/GameContext.tsx:72-78 | the daily charge of two loan lists together is the sum of their charges |
| Ledger.Borrow | src/context/GameContext.tsx:237-257 | TAKE_LOAN credits the amount and appends one loan at 1% a day with payment amount/100 and remaining amount equal to the principal; the daily charge grows by amount/100; nothing else changes |
| Ledger.Repay | src/context/GameContext.tsx:259-272 | REPAY_LOAN with an unknown id or a balance below the principal changes nothing; otherwise it debits the principal, leaves a non-negative balance, and leaves the loans without the id in their order and multiplicity (the `Seqs.Reject` of them), and changes nothing else |
| Ledger.RepayRemovesExactly | src/context/GameContext.tsx:264-270 | a repayment that goes through leaves no loan with the id, keeps every other loan, and keeps each as often as it occurred |
| Ledger.BorrowThenRepay | src/context/GameContext.tsx:237-272 | borrowing under a fresh id and repaying at once restores the company when the balance was not negative, and is refused when it was negative |
| Ledger.DailyAccrual | src/context/GameContext.tsx:63-79 | after a tick less than one day separates the clock from the last charge; one day of payments is charged exactly when a day has passed since the last charge (with an absent or 0 accrual time falling back on the clock) |
| Simulation.TimeAdvance | src/context/GameContext.tsx:57 | the game time a tick adds: none without real time or at speed 0, and never negative going forward |
| Simulation.Budget | src/context/GameContext.tsx:84-85 | the distance a truck may drive in a tick: none without game time, and never negative for a non-negative speed and time |
| Simulation.StepTruck | src/context/GameContext.tsx:81-155 | a truck that is not travelling is untouched; identity, speed, driver and condition are kept; a payment is only for an active contract the truck held and leaves it idle; an idle unbound truck stays so |
| Simulation.Collect | src/context/GameContext.tsx:59-61 | the tick's accumulators: the trucks in order, the earnings equal to the reward total of the contracts paid for, and one completed id per payment, that contract's id |
| Simulation.CollectRecordsEveryPayment | src/context/GameContext.tsx:137-140 | every payment of a step is recorded |
| Simulation.CollectPaymentSource | src/context/GameContext.tsx:137-140 | every recorded payment is the payment of some step |
| Simulation.CollectCountsPayments | src/context/GameContext.tsx:137-140 | each contract is recorded, and so credited, once per step that paid for it: two trucks paid for the same contract earn its reward twice |
| Simulation.StepFleet | src/context/GameContext.tsx:81-155 | every truck is stepped independently and in place; the earnings are the reward total of the contracts paid for, and the completed ids are exactly their ids |
| Simulation.FleetRecordsPayments | src/context/GameContext.tsx:134-141 | the fleet's payments are exactly the trucks' payments: every paid truck's contract is recorded, every recorded contract was paid to some truck, and each contract is recorded as many times as trucks were paid for it |
| Simulation.Advance | src/context/GameContext.tsx:54-168 | a paused tick changes nothing; otherwise the clock advances by delta·60000·speed, the accrual time is recorded within a day of it, the balance gains the rewards of the contracts paid for and loses the daily charge, the trucks are the stepped fleet, and the active list is the old one without the completed ids, in order and multiplicity (the `Seqs.Reject` of it); every company field other than time, balance and accrual time is kept, and so is the marketplace |
| Simulation.AdvanceRetiresPaidContracts | src/context/GameContext.tsx:134-166 | every contract paid for in a tick was active before it and is not active after it |
| Simulation.LegProgress | src/context/GameContext.tsx:84-115 | a truck short of its route's end keeps its leg and is not paid; its index does not decrease and reaches the end only if the budget covered the remaining route length, and always does when the budget exceeds it |
| Simulation.DeadheadHandOff | src/context/GameContext.tsx:115-131 | the end of a deadhead leg with an active contract starts the cargo leg: MOVING, held route as route, index 0, located at the old destination, headed for the destination city, nothing paid |
| Simulation.LegCompletion | src/context/GameContext.tsx:134-151 | the end of a cargo leg (or of a deadhead leg whose contract is gone) leaves the truck IDLE on the last waypoint with leg and contract cleared; it is paid exactly when it holds a non-empty id of an active contract, and for that contract |
| Simulation.FleetWithoutPayments | src/context/GameContext.tsx:134-141 | when no truck is paid the fleet earns nothing and completes nothing |
| Simulation.AdvanceWithoutPayments | src/context/GameContext.tsx:157-167 | a tick without payments changes the balance only by the daily charge and keeps the active contracts |
| Simulation.AdvanceAccrual | src/context/GameContext.tsx:63-79 | a tick charges the sum of the loans' daily payments and moves the accrual time to the new clock once a day has passed, however many days passed; otherwise it charges nothing and keeps the accrual time |
| Simulation.AdvanceKeepsIdleUnbound | src/context/GameContext.tsx:81-155 | if every idle truck holds no route and no contract before a tick, the same holds after it |
| Simulation.AdvanceKeepsIdleExactlyUnbound | src/context/GameContext.tsx:81-155 | if every truck is idle exactly when it holds no route and no contract before a tick, the same holds after it |
| Simulation.AdvanceByZero | src/context/GameContext.tsx:54-168 | a zero-time tick is the identity when the daily charge is not due, the accrual time is recorded and non-zero, and every travelling truck's index is recorded and short of its route's end |
| Conservation.CollectEarnsCompletedRewards | src/context/GameContext.tsx:134-141 | with unique active contract ids, payments only for active contracts and no contract paid twice, the earnings are the reward total of the active contracts whose ids are completed |
| Conservation.FleetEarnsCompletedRewards | src/context/GameContext.tsx:134-141 | with unique active contract ids and no contract held by two trucks, what the fleet earns in a tick is the reward total of the active contracts it completes |
| Conservation.AdvanceConservesValue | src/context/GameContext.tsx:134-166 | with unique contract ids and at most one truck per contract, balance plus the rewards of active contracts drops by exactly the daily charge across a tick: rewards move from the active list into the balance |
| Conservation.RejectKeepsUniqueIds | src/context/GameContext.tsx:166 | removing completed contracts keeps contract ids unique |
| Conservation.AdvanceKeepsUniqueness | src/context/GameContext.tsx:81-166 | a tick keeps active contract ids unique and every contract held by at most one truck |
| Conservation.AssignKeepsUniqueness | src/context/GameContext.tsx:180-202 | ASSIGN_JOB of a contract that is not active and not held, to a truck whose id no other truck shares, keeps active contract ids unique and every contract held by at most one truck |
| Jobs.Assign | src/context/GameContext.tsx:180-202 | with both cities catalogued, the contract becomes active, leaves the marketplace (the other offers kept in order and multiplicity, the `Seqs.Reject` of them), and is bound to exactly the trucks with the id, and nothing else changes; with a city missing nothing changes |
| Jobs.RouteTarget | src/context/GameContext.tsx:205-214 | found exactly when the first truck with the id, the active contract it holds and both of that contract's cities are found, and then it carries that truck and those cities |
| Jobs.ApplyRoute | src/context/GameContext.tsx:204-235 | with the truck, its active contract and both cities found, trucks with the id take the route and held leg with index 0, as MOVING towards the destination within 5 km of the pickup city and as MOVING_TO_SOURCE towards the pickup city otherwise, and keep every other field; other trucks and the rest of the state are unchanged; otherwise nothing changes |
| Reducer.Reduce | src/context/GameContext.tsx:47-277 | only TICK moves the clock and a paused TICK does nothing; only TICK, BUY_TRUCK and the loan actions touch the balance; only BUY_TRUCK adds a truck and none drops or renames one; only the loan actions change loans; an unknown action changes nothing |
| Reducer.TogglePauseTwice | src/context/GameContext.tsx:49-50 | toggling flips the pause flag, and toggling twice restores the state |
| Reducer.SetSpeedLastWins | src/context/GameContext.tsx:51-52 | SET_SPEED sets the multiplier and nothing else, and of two changes the later wins |
| Reducer.TakeThenRepay | src/context/GameContext.tsx:237-272 | TAKE_LOAN then REPAY_LOAN of the same fresh id restores the whole state when the balance was not negative |
| Reducer.RepayNeedsFullPrincipal | src/context/GameContext.tsx:259-262 | a balance below the principal of the loan refuses the repayment entirely |
| Reducer.BuyTruckUnchecked | src/context/GameContext.tsx:173-178 | BUY_TRUCK appends the truck and debits 50000 whatever the balance |
| Reducer.AddContractAppends | src/context/GameContext.tsx:170-171 | ADD_CONTRACT appends the offer and changes nothing else |
| Reducer.ReduceKeepsUniqueness | src/context/GameContext.tsx:47-277 | every action keeps active contract ids unique and every contract held by at most one truck, given a bought truck holding no contract already held and an assigned contract that is fresh, unheld and given to a truck with a unique id; so value conservation holds on every tick of such a game |
| ContractBoard.BestAvailableTruck | src/features/contracts/ContractBoard.tsx:66-84 | no answer exactly when the pickup city is unknown; no truck (at infinite distance) exactly when no truck is idle; otherwise the first idle truck at minimum distance from the pickup city, with that distance |
| ContractBoard.NearestIdleUnique | src/features/contracts/ContractBoard.tsx:74-81 | the first nearest idle truck is unique, so the selection is determined |
| ContractBoard.Legs | src/features/contracts/ContractBoard.tsx:30-50 | one or two legs from the truck to the destination; two, meeting at the pickup city, exactly when the truck is 5 km or more from it |
| ContractBoard.PlanRoute | src/features/contracts/ContractBoard.tsx:38-50 | the first leg's route is driven now, and a route is held exactly when there is a second leg |
| ContractBoard.HandleAssign | src/features/contracts/ContractBoard.tsx:14-64 | an unknown truck or city stops it with nothing changed; otherwise the contract becomes active and leaves the marketplace, only the trucks with the id change and are bound to it, and the company is untouched |
| ContractBoard.HandleAssignRoutes | src/features/contracts/ContractBoard.tsx:14-60 | after both dispatches the contract is active and bound to the truck, which stays in place with index 0; within 5 km it is MOVING on the route to the destination with nothing held, otherwise MOVING_TO_SOURCE on the route to the pickup city holding the cargo route |
| ContractBoard.DeadheadThenCargo | src/features/contracts/ContractBoard.tsx:41-50 | a truck sent on a deadhead leg is travelling, and the first tick, if it ends that leg, puts it on the cargo route at the pickup city, headed for the destination, unpaid |

## Left out

- The React provider, the animation-frame loop and the `useGame` hook: they only
  feed `deltaTime` into TICK. A tick's `deltaTime` is a parameter.
- `getRoute` (`src/services/routing.ts`) calls a network service. Its answers are
  the parameter `route` of `ContractBoard.HandleAssign`, a function from a
  start and end to waypoints. `getRoute` catches its own errors and falls back
  to the straight line `[start, end]`, which is one of the functions `route`
  ranges over. The `catch` in `handleAssign` is therefore not reached through
  it and is not modelled.
- The two dispatches of `handleAssign` are awaited asynchronously in the
  source. The model runs them back to back, with no other action between them.
- The haversine trigonometry of `getDistance` (`src/utils.ts`) is an abstract
  non-negative function `dist`. No property beyond non-negativity (such as
  symmetry or the triangle inequality) is assumed of it.
- `calculateDistance` is modelled by its square, `Geo.SquaredDistance`,
  without the square root. `getClosestCity` compares squared distances, and
  since the root is increasing it picks the same city.
- Geo.SquaredDistanceZero: states only that a point is at distance 0 from
  itself. It does not state the converse (distance 0 only for equal points),
  which needs non-linear real reasoning.
- Floating-point rounding, NaN and infinities are not modelled. Money, time and
  coordinates are exact reals, and a route index is a natural number rather
  than any JavaScript number.
- The ids from `Date.now()` (loans, bought trucks) are parameters of the actions.
- The presentational panels (dashboard, map, bank, fleet and driver market)
  are not modelled. The actions they send that the reducer has no case for
  (HIRE_DRIVER, ASSIGN_DRIVER, SET_HQ and SET_HQ_MODE) fall to its default
  branch, `Reducer.Action.Unhandled`, which changes nothing.
- The reputation fields are carried in the state, but no modelled action reads
  or changes them.
- The seed data (`src/data/cities.ts`, `src/data/initialState.ts`) is not part
  of this model. The city catalogue is a parameter.

=== FILE: conservation.dfy ===
/** Money conservation across a tick: in a fleet where contract ids are unique
    and no two trucks hold the same contract, the balance plus the rewards still
    outstanding on active contracts changes only by the daily loan charge. Every
    reward credited is the reward of a contract leaving the active list, once. */
module Conservation {
  import opened Wrappers
  import opened Types
  import opened Geo
  import opened Simulation
  import Ledger
  import Seqs
  import Jobs

  ghost predicate UniqueIds(cs: seq<Contract>) {
    forall i, j :: 0 <= i < j < |cs| ==> cs[i].id != cs[j].id
  }

  /** No contract id is held by two trucks. */
  ghost predicate DistinctHolders(ts: seq<Truck>) {
    forall i, j :: 0 <= i < j < |ts| && ts[i].currentContractId.Some? ==>
      ts[i].currentContractId != ts[j].currentContractId
  }

  /** The rewards split between the contracts kept and the contracts removed. */
  lemma {:induction false} RewardSplit(cs: seq<Contract>, ks: seq<Id>)
    ensures TotalReward(cs) ==
      TotalReward(Seqs.Reject(cs, ContractId, ks)) + TotalReward(Seqs.Select(cs, ContractId, ks))
  {
    if |cs| > 0 {
      RewardSplit(cs[1..], ks);
      var keep := if cs[0].id in ks then [] else [cs[0]];
      var take := if cs[0].id in ks then [cs[0]] else [];
      assert Seqs.Reject(cs, ContractId, ks) == keep + Seqs.Reject(cs[1..], ContractId, ks);
      assert Seqs.Select(cs, ContractId, ks) == take + Seqs.Select(cs[1..], ContractId, ks);
      RewardAppend(keep, Seqs.Reject(cs[1..], ContractId, ks));
      RewardAppend(take, Seqs.Select(cs[1..], ContractId, ks));
    }
  }

  lemma {:induction false} RewardAppend(a: seq<Contract>, b: seq<Contract>)
    ensures TotalReward(a + b) == TotalReward(a) + TotalReward(b)
  {
    if |a| == 0 {
      assert a + b == b;
    } else {
      assert (a + b)[1..] == a[1..] + b;
      RewardAppend(a[1..], b);
    }
  }

  /** Selecting by one more id adds the rewards of the contracts with that id. */
  lemma {:induction false} SelectOneMore(cs: seq<Contract>, k: Id, ks: seq<Id>)
    requires k !in ks
    ensures TotalReward(Seqs.Select(cs, ContractId, [k] + ks)) ==
      TotalReward(Seqs.Select(cs, ContractId, [k])) + TotalReward(Seqs.Select(cs, ContractId, ks))
  {
    if |cs| > 0 {
      SelectOneMore(cs[1..], k, ks);
      var c := cs[0];
      var both := if c.id in [k] + ks then [c] else [];
      var one := if c.id in [k] then [c] else [];
      var rest := if c.id in ks then [c] else [];
      assert Seqs.Select(cs, ContractId, [k] + ks) == both + Seqs.Select(cs[1..], ContractId, [k] + ks);
      assert Seqs.Select(cs, ContractId, [k]) == one + Seqs.Select(cs[1..], ContractId, [k]);
      assert Seqs.Select(cs, ContractId, ks) == rest + Seqs.Select(cs[1..], ContractId, ks);
      RewardAppend(both, Seqs.Select(cs[1..], ContractId, [k] + ks));
      RewardAppend(one, Seqs.Select(cs[1..], ContractId, [k]));
      RewardAppend(rest, Seqs.Select(cs[1..], ContractId, ks));
    }
  }

  /** With unique ids, selecting the id of a listed contract yields that
      contract's reward alone. */
  lemma {:induction false} SelectOwnId(cs: seq<Contract>, c: Contract)
    requires UniqueIds(cs) && c in cs
    ensures TotalReward(Seqs.Select(cs, ContractId, [c.id])) == c.reward
  {
    var head := cs[0];
    assert UniqueIds(cs[1..]);
    if head == c {
      assert forall i :: 0 <= i < |cs[1..]| ==> cs[1..][i].id != c.id by {
        forall i | 0 <= i < |cs[1..]| ensures cs[1..][i].id != c.id {
          assert cs[i + 1].id != cs[0].id;
        }
      }
      SelectNone(cs[1..], [c.id]);
      assert Seqs.Select(cs, ContractId, [c.id]) == [c] + Seqs.Select(cs[1..], ContractId, [c.id]);
    } else {
      var j :| 0 <= j < |cs| && cs[j] == c;
      assert j > 0;
      assert head.id != c.id;
      assert c in cs[1..] by { assert cs[1..][j - 1] == c; }
      SelectOwnId(cs[1..], c);
      assert Seqs.Select(cs, ContractId, [c.id]) == Seqs.Select(cs[1..], ContractId, [c.id]);
    }
  }

  lemma {:induction false} SelectNone(cs: seq<Contract>, ks: seq<Id>)
    requires forall i :: 0 <= i < |cs| ==> cs[i].id !in ks
    ensures Seqs.Select(cs, ContractId, ks) == []
  {
    if |cs| > 0 {
      SelectNone(cs[1..], ks);
    }
  }

  /** Every payment of the steps is for one of the given contracts. */
  ghost predicate PaysFrom(steps: seq<Step>, active: seq<Contract>) {
    forall i :: 0 <= i < |steps| && steps[i].paid.Some? ==> steps[i].paid.value in active
  }

  /** No contract id is paid for in two steps. */
  ghost predicate DistinctPayments(steps: seq<Step>) {
    forall i, j :: 0 <= i < j < |steps| && steps[i].paid.Some? && steps[j].paid.Some? ==>
      steps[i].paid.value.id != steps[j].paid.value.id
  }

  /** What the steps earn is exactly the rewards of the contracts whose ids
      they complete, when each contract is paid at most once. */
  lemma {:induction false} CollectEarnsCompletedRewards(active: seq<Contract>, steps: seq<Step>)
    requires UniqueIds(active)
    requires PaysFrom(steps, active)
    requires DistinctPayments(steps)
    ensures var f := Collect(steps);
      TotalReward(Seqs.Select(active, ContractId, f.completed)) == f.earned
  {
    if |steps| == 0 {
      SelectNone(active, []);
    } else {
      var tail := steps[1..];
      assert forall i :: 0 <= i < |tail| ==> tail[i] == steps[i + 1];
      assert PaysFrom(tail, active);
      assert DistinctPayments(tail);
      CollectEarnsCompletedRewards(active, tail);
      var rest := Collect(tail);
      match steps[0].paid
      case None =>
        assert Collect(steps).completed == rest.completed && Collect(steps).earned == rest.earned;
      case Some(c) =>
        assert Collect(steps).completed == [c.id] + rest.completed;
        assert Collect(steps).earned == c.reward + rest.earned;
        forall j | 0 <= j < |rest.completed|
          ensures rest.completed[j] != c.id
        {
          var k := CollectPaymentSource(tail, j);
          assert steps[k + 1].paid == Some(rest.paid[j]);
        }
        assert c.id !in rest.completed;
        SelectOneMore(active, c.id, rest.completed);
        SelectOwnId(active, c);
    }
  }

  /** What the fleet earns is exactly the rewards of the active contracts it
      completes, when contract ids are unique and no two trucks hold one. */
  lemma FleetEarnsCompletedRewards(cities: seq<City>, dist: Distance, active: seq<Contract>, advance: real, ts: seq<Truck>)
    requires UniqueIds(active)
    requires DistinctHolders(ts)
    ensures var f := StepFleet(cities, dist, active, advance, ts);
      TotalReward(Seqs.Select(active, ContractId, f.completed)) == f.earned
  {
    var steps := Steps(cities, dist, active, advance, ts);
    assert PaysFrom(steps, active);
    assert DistinctPayments(steps) by {
      forall i, j | 0 <= i < j < |steps| && steps[i].paid.Some? && steps[j].paid.Some?
        ensures steps[i].paid.value.id != steps[j].paid.value.id
      {
        assert ts[i].currentContractId == Some(steps[i].paid.value.id);
        assert ts[j].currentContractId == Some(steps[j].paid.value.id);
      }
    }
    CollectEarnsCompletedRewards(active, steps);
  }

  /** Money conservation: the balance plus the rewards outstanding on active
      contracts drops by exactly the daily loan charge across a tick. */
  lemma AdvanceConservesValue(cities: seq<City>, dist: Distance, s: State, deltaTime: real)
    requires !s.game.paused
    requires UniqueIds(s.activeContracts)
    requires DistinctHolders(s.trucks)
    ensures var r := Advance(cities, dist, s, deltaTime);
      r.game.money + TotalReward(r.activeContracts) ==
        s.game.money + TotalReward(s.activeContracts) - Ledger.DailyAccrual(s.game, r.game.time).charge
  {
    var advance := TimeAdvance(s.game, deltaTime);
    var f := StepFleet(cities, dist, s.activeContracts, advance, s.trucks);
    FleetEarnsCompletedRewards(cities, dist, s.activeContracts, advance, s.trucks);
    RewardSplit(s.activeContracts, f.completed);
  }

  /** Removing contracts keeps their ids unique. */
  lemma {:induction false} RejectKeepsUniqueIds(cs: seq<Contract>, ks: seq<Id>)
    requires UniqueIds(cs)
    ensures UniqueIds(Seqs.Reject(cs, ContractId, ks))
  {
    if |cs| > 0 {
      assert UniqueIds(cs[1..]);
      RejectKeepsUniqueIds(cs[1..], ks);
      var rest := Seqs.Reject(cs[1..], ContractId, ks);
      forall i | 0 <= i < |rest|
        ensures rest[i].id != cs[0].id
      {
        var k :| 0 <= k < |cs[1..]| && cs[1..][k] == rest[i];
        assert cs[k + 1] == rest[i];
      }
    }
  }

  /** A tick keeps contract ids unique and every contract held by at most one
      truck: trucks only keep or drop their contracts, and completed contracts
      are removed. */
  lemma AdvanceKeepsUniqueness(cities: seq<City>, dist: Distance, s: State, deltaTime: real)
    requires UniqueIds(s.activeContracts)
    requires DistinctHolders(s.trucks)
    ensures var r := Advance(cities, dist, s, deltaTime);
      UniqueIds(r.activeContracts) && DistinctHolders(r.trucks)
  {
    if !s.game.paused {
      var advance := TimeAdvance(s.game, deltaTime);
      var f := StepFleet(cities, dist, s.activeContracts, advance, s.trucks);
      RejectKeepsUniqueIds(s.activeContracts, f.completed);
      var r := Advance(cities, dist, s, deltaTime);
      forall i, j | 0 <= i < j < |r.trucks| && r.trucks[i].currentContractId.Some?
        ensures r.trucks[i].currentContractId != r.trucks[j].currentContractId
      {
        assert r.trucks[i].currentContractId == s.trucks[i].currentContractId;
      }
    }
  }

  /** ASSIGN_JOB of a contract that is neither active nor held by a truck,
      to a truck whose id no other truck shares, keeps contract ids unique and
      every contract held by at most one truck. */
  lemma AssignKeepsUniqueness(cities: seq<City>, s: State, truckId: Id, contract: Contract)
    requires UniqueIds(s.activeContracts)
    requires DistinctHolders(s.trucks)
    requires forall i :: 0 <= i < |s.activeContracts| ==> s.activeContracts[i].id != contract.id
    requires forall i :: 0 <= i < |s.trucks| ==> s.trucks[i].currentContractId != Some(contract.id)
    requires forall i, j :: 0 <= i < j < |s.trucks| && s.trucks[i].id == truckId ==> s.trucks[j].id != truckId
    ensures var r := Jobs.Assign(cities, s, truckId, contract);
      UniqueIds(r.activeContracts) && DistinctHolders(r.trucks)
  {
  }
}


=== FILE: contract_board.dfy ===
/** The decision logic of the contract board (src/features/contracts/ContractBoard.tsx):
    picking the nearest idle truck for a contract, and asking for one route leg
    or two depending on whether that truck is already at the pickup city. */
module ContractBoard {
  import opened Wrappers
  import opened Types
  import opened Geo
  import Seqs
  import Jobs
  import Simulation

  /** A distance or `Infinity`, the starting value of the minimum. */
  datatype Extended = Finite(value: real) | Infinity

  function Below(d: real, m: Extended): bool {
    m.Infinity? || d < m.value
  }

  /** The board's answer for a contract: the chosen truck (or none) and its
      distance to the pickup city. */
  datatype Choice = Choice(truck: Option<Truck>, dist: Extended)

  /** `k` is the earliest idle truck of minimum distance to `p`. */
  ghost predicate NearestIdle(trucks: seq<Truck>, dist: Distance, p: Coordinates, k: int) {
    && 0 <= k < |trucks|
    && trucks[k].status == Idle
    && (forall j :: 0 <= j < |trucks| && trucks[j].status == Idle ==>
          dist(trucks[k].location, p) <= dist(trucks[j].location, p))
    && (forall j :: 0 <= j < k && trucks[j].status == Idle ==>
          dist(trucks[k].location, p) < dist(trucks[j].location, p))
  }

  /** The earliest nearest idle truck is unique, so the choice is determined. */
  lemma NearestIdleUnique(trucks: seq<Truck>, dist: Distance, p: Coordinates, k1: int, k2: int)
    requires NearestIdle(trucks, dist, p, k1) && NearestIdle(trucks, dist, p, k2)
    ensures k1 == k2
  {
    var d1 := dist(trucks[k1].location, p);
    var d2 := dist(trucks[k2].location, p);
    assert k1 < k2 ==> d2 < d1 && d1 <= d2;
    assert k2 < k1 ==> d1 < d2 && d2 <= d1;
  }

  /** `getBestAvailableTruck`: no answer when the pickup city is unknown;
      otherwise the earliest idle truck nearest to it with its distance, or no
      truck and an infinite distance when no truck is idle. */
  method BestAvailableTruck(cities: seq<City>, dist: Distance, trucks: seq<Truck>, contract: Contract)
    returns (r: Option<Choice>)
    ensures r.None? <==> FindCity(cities, contract.sourceCityId).None?
    ensures r.Some? ==>
      var p := FindCity(cities, contract.sourceCityId).value.coordinates;
      && (r.value.truck.None? <==> forall j :: 0 <= j < |trucks| ==> trucks[j].status != Idle)
      && (r.value.truck.None? ==> r.value.dist == Infinity)
      && (r.value.truck.Some? ==>
            exists k :: && NearestIdle(trucks, dist, p, k)
                        && r.value.truck.value == trucks[k]
                        && r.value.dist == Finite(dist(trucks[k].location, p)))
  {
    var source := FindCity(cities, contract.sourceCityId);
    if source.None? {
      return None;
    }
    var p := source.value.coordinates;
    var closest: Option<Truck> := None;
    var minDist := Infinity;
    ghost var k := -1;
    var i := 0;
    while i < |trucks|
      invariant 0 <= i <= |trucks|
      invariant closest.None? <==> k == -1
      invariant closest.None? ==> minDist == Infinity && forall j :: 0 <= j < i ==> trucks[j].status != Idle
      invariant closest.Some? ==>
        && 0 <= k < i
        && trucks[k].status == Idle
        && closest.value == trucks[k]
        && minDist == Finite(dist(trucks[k].location, p))
        && (forall j :: 0 <= j < i && trucks[j].status == Idle ==> minDist.value <= dist(trucks[j].location, p))
        && (forall j :: 0 <= j < k && trucks[j].status == Idle ==> minDist.value < dist(trucks[j].location, p))
    {
      var t := trucks[i];
      if t.status == Idle {
        var d := dist(t.location, p);
        if Below(d, minDist) {
          minDist := Finite(d);
          closest := Some(t);
          k := i;
        }
      }
      i := i + 1;
    }
    if closest.Some? {
      assert NearestIdle(trucks, dist, p, k);
    }
    r := Some(Choice(closest, minDist));
  }

  /** One leg requested from the route service: from, to. */
  datatype Leg = Leg(from: Coordinates, to: Coordinates)

  /** The legs `handleAssign` asks for: straight to the destination when the
      truck is within 5 km of the pickup city, otherwise a deadhead leg to the
      pickup city followed by the cargo leg. */
  function Legs(dist: Distance, truckAt: Coordinates, source: Coordinates, dest: Coordinates): (r: seq<Leg>)
    ensures 1 <= |r| <= 2
    ensures r[0].from == truckAt && r[|r| - 1].to == dest
    ensures |r| == 2 <==> dist(truckAt, source) >= Jobs.AtSourceKm
    ensures |r| == 2 ==> r[0].to == source && r[1].from == source
  {
    if dist(truckAt, source) < Jobs.AtSourceKm then [Leg(truckAt, dest)]
    else [Leg(truckAt, source), Leg(source, dest)]
  }

  /** The route payload of ROUTE_PLANNED built from the legs, with `route`
      standing for the answers of the route service: the first leg is driven
      now, the second (if any) is held for later. */
  datatype Plan = Plan(routePath: seq<Coordinates>, pendingRoutePath: Option<seq<Coordinates>>)

  function PlanRoute(route: (Coordinates, Coordinates) -> seq<Coordinates>, legs: seq<Leg>): (r: Plan)
    requires 1 <= |legs| <= 2
    ensures r.routePath == route(legs[0].from, legs[0].to)
    ensures r.pendingRoutePath.Some? <==> |legs| == 2
    ensures |legs| == 2 ==> r.pendingRoutePath == Some(route(legs[1].from, legs[1].to))
  {
    Plan(route(legs[0].from, legs[0].to),
         if |legs| == 2 then Some(route(legs[1].from, legs[1].to)) else None)
  }

  /** `handleAssign` when no other action intervenes between its two
      dispatches: the ASSIGN_JOB transition, then the ROUTE_PLANNED transition
      with the planned route (the reducer's cases for the two actions). */
  function HandleAssign(cities: seq<City>, dist: Distance, route: (Coordinates, Coordinates) -> seq<Coordinates>,
                        s: State, contract: Contract, truckId: Id): (r: State)
    // an unknown truck or city stops it before any change
    ensures (|| Seqs.Find(s.trucks, TruckId, truckId).None?
             || FindCity(cities, contract.sourceCityId).None?
             || FindCity(cities, contract.destCityId).None?) ==> r == s
    // otherwise the contract becomes active and leaves the marketplace, only
    // trucks change, and the company is untouched
    ensures (&& Seqs.Find(s.trucks, TruckId, truckId).Some?
             && FindCity(cities, contract.sourceCityId).Some?
             && FindCity(cities, contract.destCityId).Some?) ==>
      && r.activeContracts == s.activeContracts + [contract]
      && r.contracts == Seqs.Reject(s.contracts, ContractId, [contract.id])
      && |r.trucks| == |s.trucks|
      && (forall i :: 0 <= i < |s.trucks| && s.trucks[i].id != truckId ==> r.trucks[i] == s.trucks[i])
      && (forall i :: 0 <= i < |s.trucks| && s.trucks[i].id == truckId ==>
            r.trucks[i].currentContractId == Some(contract.id))
      && r.game == s.game
  {
    match Seqs.Find(s.trucks, TruckId, truckId)
    case None => s
    case Some(t) =>
      var s1 := Jobs.Assign(cities, s, truckId, contract);
      match (FindCity(cities, contract.sourceCityId), FindCity(cities, contract.destCityId))
      case (Some(src), Some(dst)) =>
        var plan := PlanRoute(route, Legs(dist, t.location, src.coordinates, dst.coordinates));
        Jobs.ApplyRoute(cities, dist, s1, truckId, plan.routePath, plan.pendingRoutePath)
      case _ => s1
  }

  /** The board's leg decision and the reducer's status decision agree: after
      `handleAssign` the truck is active on the contract, and it drives straight
      to the destination (MOVING, no held leg) exactly when it was within 5 km
      of the pickup city; otherwise it drives the deadhead leg
      (MOVING_TO_SOURCE) holding the cargo leg. */
  lemma HandleAssignRoutes(cities: seq<City>, dist: Distance, route: (Coordinates, Coordinates) -> seq<Coordinates>,
                           s: State, contract: Contract, k: nat, src: City, dst: City)
    requires k < |s.trucks| && Seqs.Find(s.trucks, TruckId, s.trucks[k].id) == Some(s.trucks[k])
    requires FindCity(cities, contract.sourceCityId) == Some(src)
    requires FindCity(cities, contract.destCityId) == Some(dst)
    requires forall i :: 0 <= i < |s.activeContracts| ==> s.activeContracts[i].id != contract.id
    ensures var t := s.trucks[k];
      var r := HandleAssign(cities, dist, route, s, contract, t.id);
      var u := r.trucks[k];
      var near := dist(t.location, src.coordinates) < Jobs.AtSourceKm;
      && |r.trucks| == |s.trucks|
      && r.activeContracts == s.activeContracts + [contract]
      && u.currentContractId == Some(contract.id)
      && u.routeIndex == Some(0)
      && u.location == t.location
      && (near ==> && u.status == Moving
                   && u.routePath == Some(route(t.location, dst.coordinates))
                   && u.pendingRoutePath.None?
                   && u.destination == Some(dst.coordinates))
      && (!near ==> && u.status == MovingToSource
                    && u.routePath == Some(route(t.location, src.coordinates))
                    && u.pendingRoutePath == Some(route(src.coordinates, dst.coordinates))
                    && u.destination == Some(src.coordinates))
  {
    var t := s.trucks[k];
    var s1 := Jobs.Assign(cities, s, t.id, contract);
    var t1 := s1.trucks[k];
    assert t1 == t.(currentContractId := Some(contract.id));
    assert Seqs.Find(s1.trucks, TruckId, t.id) == Some(t1) by {
      FindFirstHit(s.trucks, s1.trucks, t.id, contract.id, k);
    }
    assert FindContract(s1.activeContracts, Some(contract.id)) == Some(contract) by {
      Seqs.FindSkipsMisses(s.activeContracts, [contract], ContractId, contract.id);
    }
    assert Jobs.RouteTarget(cities, s1, t.id) == Some(Jobs.Target(t1, src, dst));
    var plan := PlanRoute(route, Legs(dist, t.location, src.coordinates, dst.coordinates));
    var r := Jobs.ApplyRoute(cities, dist, s1, t.id, plan.routePath, plan.pendingRoutePath);
    assert HandleAssign(cities, dist, route, s, contract, t.id) == r;
  }

  /** Binding a contract to every truck with an id keeps the first truck with
      that id first. */
  lemma {:induction false} FindFirstHit(ts: seq<Truck>, us: seq<Truck>, id: Id, cid: Id, k: nat)
    requires k < |ts| && Seqs.Find(ts, TruckId, id) == Some(ts[k]) && ts[k].id == id
    requires |us| == |ts|
    requires forall i :: 0 <= i < |ts| ==>
      us[i] == if ts[i].id == id then ts[i].(currentContractId := Some(cid)) else ts[i]
    ensures Seqs.Find(us, TruckId, id) == Some(us[k])
    decreases k
  {
    if ts[0].id == id {
      assert ts[k] == ts[0];
      assert us[k] == us[0];
    } else {
      assert us[0].id != id;
      assert ts[0].id != ts[k].id;
      assert Seqs.Find(ts[1..], TruckId, id) == Some(ts[1..][k - 1]);
      FindFirstHit(ts[1..], us[1..], id, cid, k - 1);
    }
  }

  /** A truck sent on a deadhead leg by `handleAssign` starts the cargo leg
      to the destination, with no payment, on the tick that ends its deadhead
      leg, provided its contract is still active. */
  lemma DeadheadThenCargo(cities: seq<City>, dist: Distance, route: (Coordinates, Coordinates) -> seq<Coordinates>,
                          s: State, contract: Contract, k: nat, src: City, dst: City, advance: real)
    requires k < |s.trucks| && Seqs.Find(s.trucks, TruckId, s.trucks[k].id) == Some(s.trucks[k])
    requires FindCity(cities, contract.sourceCityId) == Some(src)
    requires FindCity(cities, contract.destCityId) == Some(dst)
    requires forall i :: 0 <= i < |s.activeContracts| ==> s.activeContracts[i].id != contract.id
    requires dist(s.trucks[k].location, src.coordinates) >= Jobs.AtSourceKm
    requires |route(s.trucks[k].location, src.coordinates)| > 0
    ensures var r := HandleAssign(cities, dist, route, s, contract, s.trucks[k].id);
      var u := r.trucks[k];
      var step := Simulation.StepTruck(cities, dist, r.activeContracts, advance, u);
      && Simulation.IsTravelling(u)
      && (Simulation.WalkOf(dist, u, advance).index >= |u.routePath.value| ==>
            && step.paid.None?
            && step.truck.status == Moving
            && step.truck.routePath == Some(route(src.coordinates, dst.coordinates))
            && step.truck.routeIndex == Some(0)
            && step.truck.location == src.coordinates
            && step.truck.destination == Some(dst.coordinates))
  {
    var t := s.trucks[k];
    var r := HandleAssign(cities, dist, route, s, contract, t.id);
    var u := r.trucks[k];
    assert u.status == MovingToSource
        && u.routePath == Some(route(t.location, src.coordinates))
        && u.pendingRoutePath == Some(route(src.coordinates, dst.coordinates))
        && u.destination == Some(src.coordinates)
        && FindContract(r.activeContracts, u.currentContractId) == Some(contract) by {
      HandleAssignRoutes(cities, dist, route, s, contract, k, src, dst);
      Seqs.FindSkipsMisses(s.activeContracts, [contract], ContractId, contract.id);
    }
    assert CityCoordinates(cities, contract.destCityId) == Some(dst.coordinates);
    if Simulation.WalkOf(dist, u, advance).index >= |u.routePath.value| {
      Simulation.DeadheadHandOff(cities, dist, r.activeContracts, advance, u, contract);
      var step := Simulation.StepTruck(cities, dist, r.activeContracts, advance, u);
      assert step.truck.location == src.coordinates;
      assert step.truck.routePath == Some(route(src.coordinates, dst.coordinates));
    }
  }
}

=== FILE: geo.dfy ===
/** Distances and the nearest-city lookup (src/utils/geoUtils.ts), plus the
    great-circle distance the simulation uses, kept abstract. */
module Geo {
  import opened Types

  /** The haversine great-circle distance in km (src/utils.ts and the copy in
      src/context/GameContext.tsx). Its trigonometry is not modelled: every
      operation takes the distance as a parameter and is proved for every
      function of this type, whose one assumed property is non-negativity. */
  type Distance = f: (Coordinates, Coordinates) -> real | forall a, b :: f(a, b) >= 0.0
    witness (a: Coordinates, b: Coordinates) => 0.0

  /** The square of `calculateDistance`, the planar Euclidean distance in
      degrees. The source takes a square root of this; the root is monotone,
      so comparisons between distances, and hence the closest city, agree. */
  function SquaredDistance(p1: Coordinates, p2: Coordinates): (r: real)
    ensures r >= 0.0
  {
    var dLat := p1.lat - p2.lat;
    var dLng := p1.lng - p2.lng;
    SquareNonNegative(dLat);
    SquareNonNegative(dLng);
    dLat * dLat + dLng * dLng
  }

  lemma SquareNonNegative(x: real)
    ensures x * x >= 0.0
  {
    if x < 0.0 {
      assert x * x == (-x) * (-x);
    }
  }

  lemma SquaredDistanceSymmetric(p1: Coordinates, p2: Coordinates)
    ensures SquaredDistance(p1, p2) == SquaredDistance(p2, p1)
  {
  }

  lemma SquaredDistanceZero(p: Coordinates)
    ensures SquaredDistance(p, p) == 0.0
  {
  }

  /** `k` is the earliest city of minimum distance to `p`: no city is closer,
      and every earlier city is strictly farther. */
  ghost predicate FirstClosest(cities: seq<City>, p: Coordinates, k: int) {
    && 0 <= k < |cities|
    && (forall j :: 0 <= j < |cities| ==>
          SquaredDistance(p, cities[k].coordinates) <= SquaredDistance(p, cities[j].coordinates))
    && (forall j :: 0 <= j < k ==>
          SquaredDistance(p, cities[k].coordinates) < SquaredDistance(p, cities[j].coordinates))
  }

  /** At most one index is the earliest closest city: ties cannot make the
      answer ambiguous. */
  lemma FirstClosestUnique(cities: seq<City>, p: Coordinates, k1: int, k2: int)
    requires FirstClosest(cities, p, k1) && FirstClosest(cities, p, k2)
    ensures k1 == k2
  {
    var d1 := SquaredDistance(p, cities[k1].coordinates);
    var d2 := SquaredDistance(p, cities[k2].coordinates);
    assert k1 < k2 ==> d2 < d1 && d1 <= d2;
    assert k2 < k1 ==> d1 < d2 && d2 <= d1;
  }

  /** `getClosestCity`: the name of the earliest closest city, or "Unknown"
      for an empty catalogue. */
  method ClosestCity(p: Coordinates, cities: seq<City>) returns (name: string)
    ensures |cities| == 0 ==> name == "Unknown"
    ensures |cities| > 0 ==> exists k :: FirstClosest(cities, p, k) && name == cities[k].name
  {
    if |cities| == 0 {
      return "Unknown";
    }
    var closest := 0;
    var minDistance := SquaredDistance(p, cities[0].coordinates);
    var i := 1;
    while i < |cities|
      invariant 1 <= i <= |cities|
      invariant 0 <= closest < i
      invariant minDistance == SquaredDistance(p, cities[closest].coordinates)
      invariant forall j :: 0 <= j < i ==> minDistance <= SquaredDistance(p, cities[j].coordinates)
      invariant forall j :: 0 <= j < closest ==> minDistance < SquaredDistance(p, cities[j].coordinates)
    {
      var d := SquaredDistance(p, cities[i].coordinates);
      if d < minDistance {
        minDistance := d;
        closest := i;
      }
      i := i + 1;
    }
    name := cities[closest].name;
  }
}

=== FILE: jobs.dfy ===
/** The two job-assignment transitions of the reducer
    (src/context/GameContext.tsx): ASSIGN_JOB binds a contract to a truck, and
    ROUTE_PLANNED later puts the truck on the route computed for it. */
module Jobs {
  import opened Wrappers
  import opened Types
  import opened Geo
  import Seqs

  /** A truck closer than this many km to the pickup city is already there. */
  const AtSourceKm: real := 5.0

  /** ASSIGN_JOB. If both cities of the contract are catalogued, the contract
      joins the active list, every contract with its id leaves the marketplace,
      and every truck with the given id is bound to it; status, route and
      position wait for ROUTE_PLANNED. Otherwise nothing changes. */
  function Assign(cities: seq<City>, s: State, truckId: Id, contract: Contract): (r: State)
    ensures FindCity(cities, contract.sourceCityId).None? || FindCity(cities, contract.destCityId).None? ==> r == s
    ensures FindCity(cities, contract.sourceCityId).Some? && FindCity(cities, contract.destCityId).Some? ==>
      && r.activeContracts == s.activeContracts + [contract]
      && (forall i :: 0 <= i < |r.contracts| ==> r.contracts[i].id != contract.id && r.contracts[i] in s.contracts)
      && (forall i :: 0 <= i < |s.contracts| && s.contracts[i].id != contract.id ==> s.contracts[i] in r.contracts)
      // the other offers stay, in order and as often as they occurred
      && r.contracts == Seqs.Reject(s.contracts, ContractId, [contract.id])
      && |r.trucks| == |s.trucks|
      && (forall i :: 0 <= i < |s.trucks| ==>
            r.trucks[i] == if s.trucks[i].id == truckId
                           then s.trucks[i].(currentContractId := Some(contract.id))
                           else s.trucks[i])
      && r.game == s.game
  {
    if FindCity(cities, contract.sourceCityId).None? || FindCity(cities, contract.destCityId).None? then s
    else
      s.(activeContracts := s.activeContracts + [contract],
         contracts := Seqs.Reject(s.contracts, ContractId, [contract.id]),
         trucks := seq(|s.trucks|, i requires 0 <= i < |s.trucks| =>
           if s.trucks[i].id == truckId then s.trucks[i].(currentContractId := Some(contract.id)) else s.trucks[i]))
  }

  /** The two cities of a truck's contract, when the first truck with the id,
      its active contract and both cities can all be found. */
  datatype Target = Target(truck: Truck, source: City, dest: City)

  function RouteTarget(cities: seq<City>, s: State, truckId: Id): (r: Option<Target>)
    ensures r.Some? <==>
      var t := Seqs.Find(s.trucks, TruckId, truckId);
      && t.Some?
      && var c := FindContract(s.activeContracts, t.value.currentContractId);
         && c.Some?
         && FindCity(cities, c.value.sourceCityId).Some?
         && FindCity(cities, c.value.destCityId).Some?
    ensures r.Some? ==>
      && Seqs.Find(s.trucks, TruckId, truckId) == Some(r.value.truck)
      && r.value.truck.id == truckId
      && var c := FindContract(s.activeContracts, r.value.truck.currentContractId).value;
         && c in s.activeContracts
         && FindCity(cities, c.sourceCityId) == Some(r.value.source)
         && FindCity(cities, c.destCityId) == Some(r.value.dest)
  {
    match Seqs.Find(s.trucks, TruckId, truckId)
    case None => None
    case Some(t) =>
      match FindContract(s.activeContracts, t.currentContractId)
      case None => None
      case Some(c) =>
        match (FindCity(cities, c.sourceCityId), FindCity(cities, c.destCityId))
        case (Some(src), Some(dst)) => Some(Target(t, src, dst))
        case _ => None
  }

  /** ROUTE_PLANNED. Every truck with the id takes the given route and held
      second leg and restarts its index. It heads for the destination city as
      MOVING when the first truck with the id is within 5 km of the pickup
      city, and for the pickup city as MOVING_TO_SOURCE otherwise. An unknown
      truck, contract or city leaves the state unchanged. */
  function ApplyRoute(cities: seq<City>, dist: Distance, s: State, truckId: Id,
                      routePath: seq<Coordinates>, pendingRoutePath: Option<seq<Coordinates>>): (r: State)
    ensures RouteTarget(cities, s, truckId).None? ==> r == s
    ensures RouteTarget(cities, s, truckId).Some? ==>
      var tg := RouteTarget(cities, s, truckId).value;
      var atSource := dist(tg.truck.location, tg.source.coordinates) < AtSourceKm;
      && |r.trucks| == |s.trucks|
      && (forall i :: 0 <= i < |s.trucks| && s.trucks[i].id != truckId ==> r.trucks[i] == s.trucks[i])
      && (forall i :: 0 <= i < |s.trucks| && s.trucks[i].id == truckId ==>
            && r.trucks[i].status == (if atSource then Moving else MovingToSource)
            && r.trucks[i].destination == Some(if atSource then tg.dest.coordinates else tg.source.coordinates)
            && r.trucks[i].routePath == Some(routePath)
            && r.trucks[i].pendingRoutePath == pendingRoutePath
            && r.trucks[i].routeIndex == Some(0)
            && r.trucks[i].location == s.trucks[i].location
            && r.trucks[i].currentContractId == s.trucks[i].currentContractId)
      // a routed truck keeps every field but the five the route sets
      && (forall i :: 0 <= i < |s.trucks| ==> KeepsIdentity(s.trucks[i], r.trucks[i]))
      && r.(trucks := s.trucks) == s
  {
    match RouteTarget(cities, s, truckId)
    case None => s
    case Some(tg) =>
      var atSource := dist(tg.truck.location, tg.source.coordinates) < AtSourceKm;
      var status := if atSource then Moving else MovingToSource;
      var destination := if atSource then tg.dest.coordinates else tg.source.coordinates;
      s.(trucks := seq(|s.trucks|, i requires 0 <= i < |s.trucks| =>
        if s.trucks[i].id == truckId then Routed(s.trucks[i], status, destination, routePath, pendingRoutePath)
        else s.trucks[i]))
  }

  /** `u` differs from `t` in the route fields at most: status, destination,
      route, held route and route index. */
  predicate KeepsIdentity(t: Truck, u: Truck) {
    u.(status := t.status, destination := t.destination, routePath := t.routePath,
       pendingRoutePath := t.pendingRoutePath, routeIndex := t.routeIndex) == t
  }

  /** One truck put on a route from its index 0, heading for `destination`. */
  function Routed(t: Truck, status: TruckStatus, destination: Coordinates,
                  routePath: seq<Coordinates>, pendingRoutePath: Option<seq<Coordinates>>): (u: Truck)
    ensures u.status == status && u.destination == Some(destination)
    ensures u.routePath == Some(routePath) && u.pendingRoutePath == pendingRoutePath && u.routeIndex == Some(0)
    ensures KeepsIdentity(t, u)
  {
    t.(status := status, destination := Some(destination), routePath := Some(routePath),
       pendingRoutePath := pendingRoutePath, routeIndex := Some(0))
  }
}

=== FILE: ledger.dfy ===
/** The financial ledger of the reducer (src/context/GameContext.tsx): taking a
    loan, repaying one in full, and the once-a-day charge of loan payments made
    by the tick. */
module Ledger {
  import opened Wrappers
  import opened Types
  import Seqs

  /** Every loan charges 1% of its principal per simulated day. */
  const InterestRate: real := 0.01

  /** One simulated day, in game-clock milliseconds. */
  const DayMs: real := 86400000.0

  /** The sum of the daily payments of all loans. */
  function TotalDailyPayment(loans: seq<Loan>): (r: real)
    // no loan with a negative payment, no negative charge; and no loans, no charge
    ensures (forall i :: 0 <= i < |loans| ==> loans[i].dailyPayment >= 0.0) ==> r >= 0.0
    ensures |loans| == 0 ==> r == 0.0
  {
    if |loans| == 0 then 0.0 else loans[0].dailyPayment + TotalDailyPayment(loans[1..])
  }

  lemma {:induction false} TotalDailyPaymentAppend(loans: seq<Loan>, more: seq<Loan>)
    ensures TotalDailyPayment(loans + more) == TotalDailyPayment(loans) + TotalDailyPayment(more)
  {
    if |loans| == 0 {
      assert loans + more == more;
    } else {
      assert (loans + more)[1..] == loans[1..] + more;
      TotalDailyPaymentAppend(loans[1..], more);
    }
  }

  /** TAKE_LOAN: the principal is credited and one loan is appended whose daily
      payment is fixed at issuance, so the daily charge grows by 1% of it. */
  function Borrow(g: GameState, id: Id, amount: real): (r: GameState)
    ensures r.money == g.money + amount
    ensures |r.loans| == |g.loans| + 1 && r.loans[..|g.loans|] == g.loans
    ensures r.loans[|g.loans|] == Loan(id, amount, 0.01, amount / 100.0, amount)
    ensures TotalDailyPayment(r.loans) == TotalDailyPayment(g.loans) + amount / 100.0
    ensures r.(money := g.money, loans := g.loans) == g
  {
    var loan := Loan(id, amount, InterestRate, amount * InterestRate, amount);
    TotalDailyPaymentAppend(g.loans, [loan]);
    assert (g.loans + [loan])[..|g.loans|] == g.loans;
    g.(money := g.money + amount, loans := g.loans + [loan])
  }

  /** REPAY_LOAN: the first loan with the id is paid off at its full principal,
      and every loan with that id is removed; an unknown id or a balance below
      the principal leaves the company unchanged. */
  function Repay(g: GameState, id: Id): (r: GameState)
    ensures var loan := Seqs.Find(g.loans, LoanId, id);
      if loan.None? || g.money < loan.value.amount then r == g
      else
        && r.money == g.money - loan.value.amount
        && r.money >= 0.0
        && |r.loans| < |g.loans|
        // the other loans stay, in order and as often as they occurred
        && r.loans == Seqs.Reject(g.loans, LoanId, [id])
        && r.(money := g.money, loans := g.loans) == g
  {
    match Seqs.Find(g.loans, LoanId, id)
    case None => g
    case Some(loan) =>
      if g.money < loan.amount then g
      else g.(money := g.money - loan.amount, loans := Seqs.Reject(g.loans, LoanId, [id]))
  }

  /** A repayment that goes through removes exactly the loans with the id:
      every other loan is kept, as often as it occurred, and no loan with the
      id is left. */
  lemma RepayRemovesExactly(g: GameState, id: Id)
    requires var loan := Seqs.Find(g.loans, LoanId, id); loan.Some? && g.money >= loan.value.amount
    ensures var r := Repay(g, id);
      && (forall i :: 0 <= i < |r.loans| ==> r.loans[i].id != id && r.loans[i] in g.loans)
      && (forall i :: 0 <= i < |g.loans| && g.loans[i].id != id ==> g.loans[i] in r.loans)
      && (forall x {:trigger multiset(r.loans)[x]} ::
            multiset(r.loans)[x] == if x.id == id then 0 else multiset(g.loans)[x])
  {
    var rest := Seqs.Reject(g.loans, LoanId, [id]);
    RepayFound(g, id, Seqs.Find(g.loans, LoanId, id).value);
    RejectOneId(g.loans, id);
  }

  lemma RejectOneId(loans: seq<Loan>, id: Id)
    ensures var rest := Seqs.Reject(loans, LoanId, [id]);
      && (forall i :: 0 <= i < |rest| ==> rest[i].id != id && rest[i] in loans)
      && (forall i :: 0 <= i < |loans| && loans[i].id != id ==> loans[i] in rest)
      && (forall x {:trigger multiset(rest)[x]} :: multiset(rest)[x] == if x.id == id then 0 else multiset(loans)[x])
  {
    var rest := Seqs.Reject(loans, LoanId, [id]);
    forall x: Loan
      ensures multiset(rest)[x] == if x.id == id then 0 else multiset(loans)[x]
    {
      assert LoanId(x) in [id] <==> x.id == id;
    }
  }

  /** Taking a loan and immediately repaying it restores the company exactly,
      provided the loan id is fresh and the balance was not negative; with a
      negative balance the repayment is refused. */
  lemma BorrowThenRepay(g: GameState, id: Id, amount: real)
    requires forall i :: 0 <= i < |g.loans| ==> g.loans[i].id != id
    ensures g.money >= 0.0 ==> Repay(Borrow(g, id, amount), id) == g
    ensures g.money < 0.0 ==> Repay(Borrow(g, id, amount), id) == Borrow(g, id, amount)
  {
    if g.money >= 0.0 {
      BorrowThenRepaid(g, id, amount);
    } else {
      BorrowThenRefused(g, id, amount);
    }
  }

  lemma BorrowThenRepaid(g: GameState, id: Id, amount: real)
    requires forall i :: 0 <= i < |g.loans| ==> g.loans[i].id != id
    requires g.money >= 0.0
    ensures Repay(Borrow(g, id, amount), id) == g
  {
    var loan := Loan(id, amount, InterestRate, amount * InterestRate, amount);
    BorrowAppends(g, id, amount);
    BorrowFindsNewLoan(g, id, loan);
    RepayNewLoan(g, id, loan);
  }

  lemma BorrowThenRefused(g: GameState, id: Id, amount: real)
    requires forall i :: 0 <= i < |g.loans| ==> g.loans[i].id != id
    requires g.money < 0.0
    ensures Repay(Borrow(g, id, amount), id) == Borrow(g, id, amount)
  {
    var loan := Loan(id, amount, InterestRate, amount * InterestRate, amount);
    BorrowAppends(g, id, amount);
    BorrowFindsNewLoan(g, id, loan);
    RepayShort(g.(money := g.money + amount, loans := g.loans + [loan]), id, loan);
  }

  lemma BorrowFindsNewLoan(g: GameState, id: Id, loan: Loan)
    requires forall i :: 0 <= i < |g.loans| ==> g.loans[i].id != id
    requires loan.id == id
    ensures Seqs.Find(g.loans + [loan], LoanId, id) == Some(loan)
  {
    Seqs.FindSkipsMisses(g.loans, [loan], LoanId, id);
  }

  lemma RepayNewLoan(g: GameState, id: Id, loan: Loan)
    requires forall i :: 0 <= i < |g.loans| ==> g.loans[i].id != id
    requires loan.id == id && g.money >= 0.0
    requires Seqs.Find(g.loans + [loan], LoanId, id) == Some(loan)
    ensures Repay(g.(money := g.money + loan.amount, loans := g.loans + [loan]), id) == g
  {
    var b := g.(money := g.money + loan.amount, loans := g.loans + [loan]);
    RejectNewLoan(g.loans, id, loan);
    RepayFound(b, id, loan);
  }

  lemma RejectNewLoan(loans: seq<Loan>, id: Id, loan: Loan)
    requires forall i :: 0 <= i < |loans| ==> loans[i].id != id
    requires loan.id == id
    ensures Seqs.Reject(loans + [loan], LoanId, [id]) == loans
  {
    Seqs.RejectAppend(loans, [loan], LoanId, [id]);
    Seqs.RejectAbsent(loans, LoanId, [id]);
    assert Seqs.Reject([loan], LoanId, [id]) == [];
  }

  lemma BorrowAppends(g: GameState, id: Id, amount: real)
    ensures Borrow(g, id, amount) ==
      g.(money := g.money + amount, loans := g.loans + [Loan(id, amount, InterestRate, amount * InterestRate, amount)])
  {
  }

  lemma RepayFound(g: GameState, id: Id, loan: Loan)
    requires Seqs.Find(g.loans, LoanId, id) == Some(loan) && g.money >= loan.amount
    ensures Repay(g, id) == g.(money := g.money - loan.amount, loans := Seqs.Reject(g.loans, LoanId, [id]))
  {
  }

  lemma RepayShort(g: GameState, id: Id, loan: Loan)
    requires Seqs.Find(g.loans, LoanId, id) == Some(loan) && g.money < loan.amount
    ensures Repay(g, id) == g
  {
  }

  /** The accrual time of the last daily charge. The source's `||` falls back
      to the current clock both when the field is absent and when it is 0. */
  function LastAccrual(g: GameState): real {
    match g.lastInfluenceTime
    case Some(t) => if t != 0.0 then t else g.time
    case None => g.time
  }

  datatype Accrual = Accrual(charge: real, last: real)

  /** The daily charge of a tick that moves the clock to `newTime`: once a full
      day has passed since the last charge, one day of loan payments is due and
      the accrual time moves to `newTime`. At most one day is charged per tick. */
  function DailyAccrual(g: GameState, newTime: real): (r: Accrual)
    ensures newTime - r.last < DayMs
    ensures newTime - LastAccrual(g) >= DayMs ==> r == Accrual(TotalDailyPayment(g.loans), newTime)
    ensures newTime - LastAccrual(g) < DayMs ==> r == Accrual(0.0, LastAccrual(g))
  {
    var last := LastAccrual(g);
    if newTime - last >= DayMs then Accrual(TotalDailyPayment(g.loans), newTime)
    else Accrual(0.0, last)
  }
}

=== FILE: movement.dfy ===
/** The waypoint walk of the tick (src/context/GameContext.tsx): a truck with a
    distance budget for this tick follows its route, snapping to every waypoint
    the budget covers and interpolating towards the first one it does not. */
module Movement {
  import opened Types
  import opened Geo

  /** `lerp`: linear interpolation from `start` to `end` by the fraction `t`. */
  function Lerp(start: real, end: real, t: real): (r: real)
    ensures 0.0 <= t <= 1.0 && start <= end ==> start <= r <= end
    ensures 0.0 <= t <= 1.0 && end <= start ==> end <= r <= start
  {
    LerpBetween(start, end, t);
    start + (end - start) * t
  }

  lemma LerpBetween(start: real, end: real, t: real)
    ensures 0.0 <= t <= 1.0 && start <= end ==> 0.0 <= (end - start) * t <= end - start
    ensures 0.0 <= t <= 1.0 && end <= start ==> end - start <= (end - start) * t <= 0.0
  {
    if 0.0 <= t <= 1.0 {
      var d := end - start;
      if start <= end {
        MulNonNegative(d, t);
        MulNonNegative(d, 1.0 - t);
        assert d * (1.0 - t) == d - d * t;
      }
      if end <= start {
        MulNonNegative(-d, t);
        MulNonNegative(-d, 1.0 - t);
        assert (-d) * t == -(d * t);
        assert (-d) * (1.0 - t) == d * t - d;
      }
    }
  }

  lemma MulNonNegative(x: real, y: real)
    requires x >= 0.0 && y >= 0.0
    ensures x * y >= 0.0
  {
  }

  /** The point a fraction `t` of the way from `a` to `b`, interpolating
      latitude and longitude separately (not along the great circle). */
  function LerpPoint(a: Coordinates, b: Coordinates, t: real): (r: Coordinates)
    ensures t == 0.0 ==> r == a
    ensures t == 1.0 ==> r == b
    ensures 0.0 <= t <= 1.0 ==> Between(a.lat, b.lat, r.lat) && Between(a.lng, b.lng, r.lng)
  {
    Coordinates(Lerp(a.lat, b.lat, t), Lerp(a.lng, b.lng, t))
  }

  /** `x` lies between `lo` and `hi`, in either order. */
  predicate Between(lo: real, hi: real, x: real) {
    (lo <= x <= hi) || (hi <= x <= lo)
  }

  /** The distance still to drive from `pos` through the waypoints
      `path[index..]`, leg by leg. */
  function PathLength(dist: Distance, pos: Coordinates, path: seq<Coordinates>, index: nat): (r: real)
    ensures r >= 0.0
    decreases |path| - index
  {
    if index >= |path| then 0.0
    else dist(pos, path[index]) + PathLength(dist, path[index], path, index + 1)
  }

  /** Where the walk stopped: the position, the index of the next unvisited
      waypoint and the distance budget left over. */
  datatype Walked = Walked(pos: Coordinates, index: nat, budget: real)

  /** The `while (distToMove > 0 && currentIndex < routePath.length)` loop.
      Each round either reaches the next waypoint (the index grows) or stops
      part-way towards it (the budget becomes 0), so the walk terminates. */
  function Walk(dist: Distance, path: seq<Coordinates>, index: nat, pos: Coordinates, budget: real): (r: Walked)
    decreases |path| - index, if budget > 0.0 then 1 else 0
    // the index only moves forward, and never past the end of the route
    ensures index <= r.index
    ensures index <= |path| ==> r.index <= |path|
    // nothing happens without budget or without waypoints left
    ensures budget <= 0.0 || index >= |path| ==> r == Walked(pos, index, budget)
    // the walk stops short of the end only once the budget is spent
    ensures r.index < |path| ==> r.budget <= 0.0
    ensures budget > 0.0 ==> 0.0 <= r.budget <= budget
    // reaching the end costs exactly the remaining route length, and ends on
    // the last waypoint
    ensures r.index >= |path| ==> r.budget == budget - PathLength(dist, pos, path, index)
    ensures index < |path| <= r.index ==> r.pos == path[|path| - 1]
    // a budget exceeding the remaining route length always reaches the end
    ensures budget > PathLength(dist, pos, path, index) ==> r.index >= |path|
  {
    if budget > 0.0 && index < |path| then
      var target := path[index];
      var d := dist(pos, target);
      if budget >= d then
        Walk(dist, path, index + 1, target, budget - d)
      else
        Walk(dist, path, index, LerpPoint(pos, target, budget / d), 0.0)
    else
      Walked(pos, index, budget)
  }

  /** A walk that stops short of the end stands on the segment it was
      driving: from the waypoint it last reached (or its start, if it reached
      none) a fraction below 1 of the way towards the next waypoint. */
  lemma {:induction false} WalkStopsOnSegment(dist: Distance, path: seq<Coordinates>, index: nat, pos: Coordinates, budget: real)
    requires budget > 0.0 && index < |path|
    ensures var r := Walk(dist, path, index, pos, budget);
      r.index < |path| ==>
        var from := if r.index == index then pos else path[r.index - 1];
        exists t :: 0.0 <= t < 1.0 && r.pos == LerpPoint(from, path[r.index], t)
    decreases |path| - index
  {
    var target := path[index];
    var d := dist(pos, target);
    if budget >= d {
      if index + 1 < |path| {
        if budget - d > 0.0 {
          WalkStopsOnSegment(dist, path, index + 1, target, budget - d);
          var r := Walk(dist, path, index + 1, target, budget - d);
          assert Walk(dist, path, index, pos, budget) == r;
          if r.index < |path| {
            var t :| 0.0 <= t < 1.0 && r.pos == LerpPoint(if r.index == index + 1 then target else path[r.index - 1], path[r.index], t);
            assert r.pos == LerpPoint(path[r.index - 1], path[r.index], t);
          }
        } else {
          assert Walk(dist, path, index, pos, budget) == Walked(target, index + 1, budget - d);
          assert LerpPoint(target, path[index + 1], 0.0) == target;
        }
      }
    } else {
      DivBelowOne(budget, d);
      assert Walk(dist, path, index, pos, budget).pos == LerpPoint(pos, target, budget / d);
    }
  }

  lemma DivBelowOne(a: real, d: real)
    requires 0.0 < a < d
    ensures 0.0 <= a / d < 1.0
  {
    var q := a / d;
    assert q * d == a;
    if q >= 1.0 {
      MulNonNegative(q - 1.0, d);
    }
    if q < 0.0 {
      MulNonNegative(-q, d);
    }
  }
}

=== FILE: reducer.dfy ===
/** `gameReducer` (src/context/GameContext.tsx): the one pure transition
    `(State, Action) -> State` through which the game changes. The city
    catalogue and the great-circle distance are parameters; loan ids, which
    the source draws from the wall clock, arrive in the action. */
module Reducer {
  import opened Wrappers
  import opened Types
  import opened Geo
  import Seqs
  import Ledger
  import Simulation
  import Jobs
  import Conservation

  datatype Action =
    | Tick(deltaTime: real)
    | TogglePause
    | SetSpeed(speed: real)
    | AddContract(contract: Contract)
    | BuyTruck(truck: Truck)
    | AssignJob(truckId: Id, contract: Contract)
    | RoutePlanned(truckId: Id, routePath: seq<Coordinates>, pendingRoutePath: Option<seq<Coordinates>>)
    | TakeLoan(amount: real, loanId: Id)
    | RepayLoan(loanId: Id)
      /** An action type the reducer has no case for. */
    | Unhandled(kind: string)

  /** The price BUY_TRUCK deducts; the reducer does not check the balance. */
  const TruckPrice: real := 50000.0

  function Reduce(cities: seq<City>, dist: Distance, s: State, a: Action): (r: State)
    // only a tick moves the clock, and a paused tick does nothing at all
    ensures !a.Tick? ==> r.game.time == s.game.time
    ensures a.Tick? && s.game.paused ==> r == s
    // only the ledger, a tick and a purchase touch the balance
    ensures !(a.Tick? || a.BuyTruck? || a.TakeLoan? || a.RepayLoan?) ==> r.game.money == s.game.money
    // only a purchase adds trucks; no action drops, reorders or renames one
    ensures |r.trucks| == |s.trucks| + (if a.BuyTruck? then 1 else 0)
    ensures forall i :: 0 <= i < |s.trucks| ==> r.trucks[i].id == s.trucks[i].id
    // only the ledger changes the loans
    ensures !(a.TakeLoan? || a.RepayLoan?) ==> r.game.loans == s.game.loans
    // an action the reducer does not know changes nothing
    ensures a.Unhandled? ==> r == s
  {
    match a
    case TogglePause => s.(game := s.game.(paused := !s.game.paused))
    case SetSpeed(speed) => s.(game := s.game.(gameSpeed := speed))
    case Tick(dt) => Simulation.Advance(cities, dist, s, dt)
    case AddContract(c) => s.(contracts := s.contracts + [c])
    case BuyTruck(t) => s.(trucks := s.trucks + [t], game := s.game.(money := s.game.money - TruckPrice))
    case AssignJob(truckId, c) => Jobs.Assign(cities, s, truckId, c)
    case RoutePlanned(truckId, path, pending) => Jobs.ApplyRoute(cities, dist, s, truckId, path, pending)
    case TakeLoan(amount, id) => s.(game := Ledger.Borrow(s.game, id, amount))
    case RepayLoan(id) => s.(game := Ledger.Repay(s.game, id))
    case Unhandled(_) => s
  }

  /** Pausing twice resumes exactly where the game stood. */
  lemma TogglePauseTwice(cities: seq<City>, dist: Distance, s: State)
    ensures Reduce(cities, dist, Reduce(cities, dist, s, TogglePause), TogglePause) == s
    ensures Reduce(cities, dist, s, TogglePause).game.paused == !s.game.paused
  {
  }

  /** A speed change sets the multiplier and nothing else, and the later of two
      changes wins. */
  lemma SetSpeedLastWins(cities: seq<City>, dist: Distance, s: State, v: real, w: real)
    ensures Reduce(cities, dist, s, SetSpeed(v)).game.gameSpeed == v
    ensures var r := Reduce(cities, dist, s, SetSpeed(v));
      r.game.(gameSpeed := s.game.gameSpeed) == s.game && r.(game := s.game) == s
    ensures Reduce(cities, dist, Reduce(cities, dist, s, SetSpeed(v)), SetSpeed(w)) == Reduce(cities, dist, s, SetSpeed(w))
  {
  }

  /** Taking a loan with a fresh id and repaying it at once restores the whole
      state when the balance was not negative. */
  lemma TakeThenRepay(cities: seq<City>, dist: Distance, s: State, amount: real, id: Id)
    requires forall i :: 0 <= i < |s.game.loans| ==> s.game.loans[i].id != id
    requires s.game.money >= 0.0
    ensures Reduce(cities, dist, Reduce(cities, dist, s, TakeLoan(amount, id)), RepayLoan(id)) == s
  {
    var t := s.(game := Ledger.Borrow(s.game, id, amount));
    ReduceLedger(cities, dist, s, TakeLoan(amount, id));
    ReduceLedger(cities, dist, t, RepayLoan(id));
    Ledger.BorrowThenRepay(s.game, id, amount);
    assert t.(game := Ledger.Repay(t.game, id)) == s;
  }

  /** The two loan actions act on the company alone. */
  lemma ReduceLedger(cities: seq<City>, dist: Distance, s: State, a: Action)
    requires a.TakeLoan? || a.RepayLoan?
    ensures a.TakeLoan? ==> Reduce(cities, dist, s, a) == s.(game := Ledger.Borrow(s.game, a.loanId, a.amount))
    ensures a.RepayLoan? ==> Reduce(cities, dist, s, a) == s.(game := Ledger.Repay(s.game, a.loanId))
  {
  }

  /** Repayment is all-or-nothing: with a balance short of the principal, even
      by the smallest amount, neither the balance nor the loans change. */
  lemma RepayNeedsFullPrincipal(cities: seq<City>, dist: Distance, s: State, l: Loan)
    requires Seqs.Find(s.game.loans, LoanId, l.id) == Some(l)
    requires s.game.money < l.amount
    ensures Reduce(cities, dist, s, RepayLoan(l.id)) == s
  {
  }

  /** A purchase is charged whatever the balance: the reducer itself does not
      refuse a truck the company cannot afford. */
  lemma BuyTruckUnchecked(cities: seq<City>, dist: Distance, s: State, t: Truck)
    ensures var r := Reduce(cities, dist, s, BuyTruck(t));
      && r.game.money == s.game.money - 50000.0
      && r.trucks == s.trucks + [t]
  {
  }

  /** A new contract joins the end of the marketplace. */
  lemma AddContractAppends(cities: seq<City>, dist: Distance, s: State, c: Contract)
    ensures var r := Reduce(cities, dist, s, AddContract(c));
      r.contracts == s.contracts + [c] && r.(contracts := s.contracts) == s
  {
  }

  /** Every action keeps the two hypotheses of money conservation (unique
      active contract ids, no contract held by two trucks), so the conservation
      of `Conservation.AdvanceConservesValue` holds on every tick of a game
      started from such a state. A bought truck must not hold a contract some
      truck already holds; an assigned contract must be neither active nor
      held, and go to a truck whose id no other truck shares. */
  lemma ReduceKeepsUniqueness(cities: seq<City>, dist: Distance, s: State, a: Action)
    requires Conservation.UniqueIds(s.activeContracts)
    requires Conservation.DistinctHolders(s.trucks)
    requires a.BuyTruck? ==> forall i :: 0 <= i < |s.trucks| && s.trucks[i].currentContractId.Some? ==>
      s.trucks[i].currentContractId != a.truck.currentContractId
    requires a.AssignJob? ==>
      && (forall i :: 0 <= i < |s.activeContracts| ==> s.activeContracts[i].id != a.contract.id)
      && (forall i :: 0 <= i < |s.trucks| ==> s.trucks[i].currentContractId != Some(a.contract.id))
      && (forall i, j :: 0 <= i < j < |s.trucks| && s.trucks[i].id == a.truckId ==> s.trucks[j].id != a.truckId)
    ensures var r := Reduce(cities, dist, s, a);
      Conservation.UniqueIds(r.activeContracts) && Conservation.DistinctHolders(r.trucks)
  {
    match a
    case Tick(dt) =>
      Conservation.AdvanceKeepsUniqueness(cities, dist, s, dt);
    case AssignJob(truckId, c) =>
      Conservation.AssignKeepsUniqueness(cities, s, truckId, c);
    case BuyTruck(t) =>
      var r := Reduce(cities, dist, s, a);
      forall i, j | 0 <= i < j < |r.trucks| && r.trucks[i].currentContractId.Some?
        ensures r.trucks[i].currentContractId != r.trucks[j].currentContractId
      {
        assert r.trucks[i] == s.trucks[i];
        if j == |s.trucks| {
          assert r.trucks[j] == t;
        } else {
          assert r.trucks[j] == s.trucks[j];
        }
      }
    case RoutePlanned(truckId, path, pending) =>
      var r := Reduce(cities, dist, s, a);
      assert forall i :: 0 <= i < |r.trucks| ==> r.trucks[i].currentContractId == s.trucks[i].currentContractId;
    case _ =>
  }
}

=== FILE: seqs.dfy ===
/** Id-keyed lookups and removals over sequences, the `Array.prototype.find`
    and `Array.prototype.filter` calls through which the game resolves every
    cross-entity reference. Every entity is looked up by a string key. */
module Seqs {
  import opened Wrappers

  /** The first element whose key is `k`, or `None`. */
  function Find<T>(s: seq<T>, key: T -> string, k: string): (r: Option<T>)
    ensures r.Some? ==> r.value in s && key(r.value) == k
    ensures r.None? <==> forall i :: 0 <= i < |s| ==> key(s[i]) != k
    ensures |s| > 0 && key(s[0]) == k ==> r == Some(s[0])
  {
    if |s| == 0 then None
    else if key(s[0]) == k then Some(s[0])
    else Find(s[1..], key, k)
  }

  /** The elements whose key is not listed in `ks`, in their original order. */
  function Reject<T(==,!new)>(s: seq<T>, key: T -> string, ks: seq<string>): (r: seq<T>)
    ensures |r| <= |s|
    // every element is kept as often as it occurs, or dropped entirely
    ensures forall x {:trigger multiset(r)[x]} :: multiset(r)[x] == if key(x) in ks then 0 else multiset(s)[x]
    ensures forall i :: 0 <= i < |r| ==> r[i] in s && key(r[i]) !in ks
    ensures forall i :: 0 <= i < |s| && key(s[i]) !in ks ==> s[i] in r
    ensures (exists i :: 0 <= i < |s| && key(s[i]) in ks) ==> |r| < |s|
  {
    if |s| == 0 then []
    else
      MultisetCons(s);
      (if key(s[0]) in ks then [] else [s[0]]) + Reject(s[1..], key, ks)
  }

  /** The elements whose key is listed in `ks`, in their original order: the
      complement of `Reject`. */
  function Select<T(==,!new)>(s: seq<T>, key: T -> string, ks: seq<string>): (r: seq<T>)
    ensures |r| <= |s|
    ensures forall x {:trigger multiset(r)[x]} :: multiset(r)[x] == if key(x) in ks then multiset(s)[x] else 0
    ensures forall i :: 0 <= i < |r| ==> r[i] in s && key(r[i]) in ks
    ensures forall i :: 0 <= i < |s| && key(s[i]) in ks ==> s[i] in r
  {
    if |s| == 0 then []
    else
      MultisetCons(s);
      (if key(s[0]) in ks then [s[0]] else []) + Select(s[1..], key, ks)
  }

  /** A non-empty sequence is its head followed by its tail, as a multiset too. */
  lemma MultisetCons<T>(s: seq<T>)
    requires |s| > 0
    ensures s == [s[0]] + s[1..]
    ensures multiset(s) == multiset([s[0]]) + multiset(s[1..])
  {
    assert s == [s[0]] + s[1..];
  }

  /** A lookup that misses a prefix is decided by the rest of the sequence. */
  lemma {:induction false} FindSkipsMisses<T>(s: seq<T>, t: seq<T>, key: T -> string, k: string)
    requires forall i :: 0 <= i < |s| ==> key(s[i]) != k
    ensures Find(s + t, key, k) == Find(t, key, k)
  {
    if |s| > 0 {
      assert (s + t)[1..] == s[1..] + t;
      FindSkipsMisses(s[1..], t, key, k);
    } else {
      assert s + t == t;
    }
  }

  /** Removing keys that no element carries leaves the sequence as it was. */
  lemma {:induction false} RejectAbsent<T(!new)>(s: seq<T>, key: T -> string, ks: seq<string>)
    requires forall i :: 0 <= i < |s| ==> key(s[i]) !in ks
    ensures Reject(s, key, ks) == s
  {
    if |s| > 0 {
      RejectAbsent(s[1..], key, ks);
      assert [s[0]] + s[1..] == s;
    }
  }

  /** Removal distributes over concatenation. */
  lemma {:induction false} RejectAppend<T(!new)>(s: seq<T>, t: seq<T>, key: T -> string, ks: seq<string>)
    ensures Reject(s + t, key, ks) == Reject(s, key, ks) + Reject(t, key, ks)
  {
    if |s| == 0 {
      assert s + t == t;
    } else {
      assert (s + t)[1..] == s[1..] + t;
      RejectAppend(s[1..], t, key, ks);
    }
  }
}

=== FILE: simulation.dfy ===
/** The TICK transition of the reducer (src/context/GameContext.tsx): the clock
    advance, the daily loan charge, the waypoint walk of every travelling truck,
    the deadhead-to-cargo hand-off, job completion and payment. */
module Simulation {
  import opened Wrappers
  import opened Types
  import opened Geo
  import opened Movement
  import Ledger
  import Seqs

  /** One real second is one game minute at speed 1. */
  const MsPerRealSecond: real := 60000.0

  const MsPerHour: real := 3600000.0

  /** A truck the tick moves: on one of the two legs, with waypoints to follow. */
  predicate IsTravelling(t: Truck) {
    && (t.status == Moving || t.status == MovingToSource)
    && t.routePath.Some?
    && |t.routePath.value| > 0
  }

  /** `if (truck.currentContractId)`: an absent id and the empty id are both false. */
  predicate HoldsContract(t: Truck) {
    t.currentContractId.Some? && t.currentContractId.value != ""
  }

  /** An idle truck holds no route and no contract. */
  predicate IdleUnbound(t: Truck) {
    t.status == Idle ==> t.routePath.None? && t.currentContractId.None?
  }

  /** A truck is idle exactly when it holds no route and no contract. */
  predicate IdleExactlyUnbound(t: Truck) {
    t.status == Idle <==> t.routePath.None? && t.currentContractId.None?
  }

  /** The distance a truck can cover in `advance` game milliseconds. */
  function Budget(t: Truck, advance: real): (r: real)
    // km/h over hours: nothing without time, and never negative going forward
    ensures advance == 0.0 ==> r == 0.0
    ensures t.speed >= 0.0 && advance >= 0.0 ==> r >= 0.0
  {
    MulNonNegativeIf(t.speed, advance / MsPerHour);
    t.speed * (advance / MsPerHour)
  }

  lemma MulNonNegativeIf(x: real, y: real)
    ensures x >= 0.0 && y >= 0.0 ==> x * y >= 0.0
  {
    if x >= 0.0 && y >= 0.0 {
      MulNonNegative(x, y);
    }
  }

  /** The walk of a travelling truck from its stored position and index. */
  function WalkOf(dist: Distance, t: Truck, advance: real): Walked
    requires IsTravelling(t)
  {
    Walk(dist, t.routePath.value, t.routeIndex.GetOr(0), t.location, Budget(t, advance))
  }

  /** The truck after one tick, and the contract it was paid for, if any. */
  datatype Step = Step(truck: Truck, paid: Option<Contract>)

  /** One truck through one tick. A truck that is not travelling is returned
      as it was. Otherwise it walks its route; at the end of a deadhead leg whose
      contract is still active it starts the cargo leg; at the end of any other
      leg it becomes idle and is paid for its contract if that is still active. */
  function StepTruck(cities: seq<City>, dist: Distance, active: seq<Contract>, advance: real, t: Truck): (r: Step)
    ensures !IsTravelling(t) ==> r == Step(t, None)
    ensures r.truck.id == t.id && r.truck.name == t.name && r.truck.speed == t.speed
    ensures r.truck.driverId == t.driverId && r.truck.condition == t.condition
    ensures r.paid.Some? ==>
      && r.paid.value in active
      && t.currentContractId == Some(r.paid.value.id)
      && IsTravelling(t)
      && r.truck.status == Idle
    ensures IdleUnbound(t) ==> IdleUnbound(r.truck)
    ensures IdleExactlyUnbound(t) ==> IdleExactlyUnbound(r.truck)
    // a truck keeps its contract or lets it go; it never takes another
    ensures r.truck.currentContractId == t.currentContractId || r.truck.currentContractId.None?
  {
    if !IsTravelling(t) then Step(t, None)
    else
      var path := t.routePath.value;
      var w := WalkOf(dist, t, advance);
      var next := t.(location := w.pos, routeIndex := Some(w.index));
      if w.index < |path| then Step(next, None)
      else
        var contract := FindContract(active, t.currentContractId);
        if t.status == MovingToSource && contract.Some? then
          Step(next.(status := Moving,
                     location := t.destination.GetOr(t.location),
                     destination := CityCoordinates(cities, contract.value.destCityId),
                     routePath := Some(t.pendingRoutePath.GetOr([])),
                     pendingRoutePath := None,
                     routeIndex := Some(0)),
               None)
        else
          Step(next.(status := Idle,
                     destination := None,
                     currentContractId := None,
                     routePath := None,
                     routeIndex := Some(0)),
               if HoldsContract(t) then contract else None)
  }

  /** The whole fleet through one tick: the moved trucks, the contracts paid
      for, the rewards earned and the ids of the contracts completed, in fleet
      order. */
  datatype Fleet = Fleet(trucks: seq<Truck>, paid: seq<Contract>, earned: real, completed: seq<Id>)

  /** The `newTrucks` map: every truck steps on its own, against the active
      contracts as they stood at the start of the tick. */
  function Steps(cities: seq<City>, dist: Distance, active: seq<Contract>, advance: real, trucks: seq<Truck>): (r: seq<Step>)
    ensures |r| == |trucks|
    ensures forall i :: 0 <= i < |trucks| ==> r[i] == StepTruck(cities, dist, active, advance, trucks[i])
  {
    seq(|trucks|, i requires 0 <= i < |trucks| => StepTruck(cities, dist, active, advance, trucks[i]))
  }

  /** The `moneyEarned` and `completedContracts` accumulators: the trucks of
      the steps, and each step's payment recorded once, in order. */
  function Collect(steps: seq<Step>): (r: Fleet)
    ensures |r.trucks| == |steps| && forall i :: 0 <= i < |steps| ==> r.trucks[i] == steps[i].truck
    ensures |r.paid| <= |steps|
    ensures r.earned == TotalReward(r.paid)
    ensures |r.completed| == |r.paid| && forall j :: 0 <= j < |r.paid| ==> r.completed[j] == r.paid[j].id
  {
    if |steps| == 0 then Fleet([], [], 0.0, [])
    else
      var rest := Collect(steps[1..]);
      match steps[0].paid
      case None => Fleet([steps[0].truck] + rest.trucks, rest.paid, rest.earned, rest.completed)
      case Some(c) =>
        assert ([c] + rest.paid)[1..] == rest.paid;
        Fleet([steps[0].truck] + rest.trucks, [c] + rest.paid, c.reward + rest.earned, [c.id] + rest.completed)
  }

  /** Every payment of a step is recorded. */
  lemma {:induction false} CollectRecordsEveryPayment(steps: seq<Step>)
    ensures forall i :: 0 <= i < |steps| && steps[i].paid.Some? ==> steps[i].paid.value in Collect(steps).paid
  {
    if |steps| > 0 {
      var rest := Collect(steps[1..]);
      CollectRecordsEveryPayment(steps[1..]);
      var head := if steps[0].paid.Some? then [steps[0].paid.value] else [];
      assert Collect(steps).paid == head + rest.paid;
      forall i | 0 <= i < |steps| && steps[i].paid.Some?
        ensures steps[i].paid.value in Collect(steps).paid
      {
        if i > 0 {
          assert steps[1..][i - 1] == steps[i];
        }
      }
    }
  }

  /** Every recorded contract was paid in some step: the step that paid the
      `j`-th recorded contract. */
  lemma {:induction false} CollectPaymentSource(steps: seq<Step>, j: nat) returns (i: nat)
    requires j < |Collect(steps).paid|
    ensures i < |steps| && steps[i].paid == Some(Collect(steps).paid[j])
  {
    var rest := Collect(steps[1..]);
    var head := if steps[0].paid.Some? then [steps[0].paid.value] else [];
    assert Collect(steps).paid == head + rest.paid;
    if j < |head| {
      i := 0;
    } else {
      var k := CollectPaymentSource(steps[1..], j - |head|);
      assert steps[1..][k] == steps[k + 1];
      i := k + 1;
    }
  }

  /** The number of steps that paid for `c`. */
  function CountPaid(steps: seq<Step>, c: Contract): nat {
    if |steps| == 0 then 0
    else (if steps[0].paid == Some(c) then 1 else 0) + CountPaid(steps[1..], c)
  }

  /** Every payment is recorded once per step that made it: a contract paid to
      two trucks is recorded, and credited, twice. */
  lemma {:induction false} CollectCountsPayments(steps: seq<Step>)
    ensures forall c {:trigger multiset(Collect(steps).paid)[c]} ::
      multiset(Collect(steps).paid)[c] == CountPaid(steps, c)
  {
    if |steps| > 0 {
      CollectCountsPayments(steps[1..]);
      var rest := Collect(steps[1..]);
      var head := if steps[0].paid.Some? then [steps[0].paid.value] else [];
      assert Collect(steps).paid == head + rest.paid;
      assert multiset(head + rest.paid) == multiset(head) + multiset(rest.paid);
      forall c
        ensures multiset(Collect(steps).paid)[c] == CountPaid(steps, c)
      {
        assert multiset(rest.paid)[c] == CountPaid(steps[1..], c);
      }
    }
  }

  /** Steps without payments record nothing. */
  lemma {:induction false} CollectWithoutPayments(steps: seq<Step>)
    requires forall i :: 0 <= i < |steps| ==> steps[i].paid.None?
    ensures Collect(steps).paid == []
  {
    if |steps| > 0 {
      CollectWithoutPayments(steps[1..]);
    }
  }

  /** One tick of the fleet. */
  function StepFleet(cities: seq<City>, dist: Distance, active: seq<Contract>, advance: real, trucks: seq<Truck>): (r: Fleet)
    ensures |r.trucks| == |trucks|
    ensures forall i :: 0 <= i < |trucks| ==> r.trucks[i] == StepTruck(cities, dist, active, advance, trucks[i]).truck
    ensures |r.paid| <= |trucks|
    // the earnings are the rewards of the contracts paid for, whose ids are completed
    ensures r.earned == TotalReward(r.paid)
    ensures |r.completed| == |r.paid| && forall j :: 0 <= j < |r.paid| ==> r.completed[j] == r.paid[j].id
  {
    Collect(Steps(cities, dist, active, advance, trucks))
  }

  /** The game time a tick of `deltaTime` real seconds adds. */
  function TimeAdvance(g: GameState, deltaTime: real): (r: real)
    // a minute of game time per real second at speed 1, scaled by the speed
    ensures deltaTime == 0.0 || g.gameSpeed == 0.0 ==> r == 0.0
    ensures deltaTime >= 0.0 && g.gameSpeed >= 0.0 ==> r >= 0.0
  {
    MulNonNegativeIf(deltaTime * MsPerRealSecond, g.gameSpeed);
    deltaTime * MsPerRealSecond * g.gameSpeed
  }

  /** TICK. Paused, nothing changes. Otherwise the clock advances, one day of
      loan payments is charged if a day has passed since the last charge, every
      truck steps, and completed contracts leave the active list. */
  function Advance(cities: seq<City>, dist: Distance, s: State, deltaTime: real): (r: State)
    ensures s.game.paused ==> r == s
    ensures !s.game.paused ==>
      && r.game.time == s.game.time + deltaTime * 60000.0 * s.game.gameSpeed
      && r.game.lastInfluenceTime.Some?
      && r.game.time - r.game.lastInfluenceTime.value < Ledger.DayMs
    ensures |r.trucks| == |s.trucks|
    ensures forall i :: 0 <= i < |s.trucks| ==> r.trucks[i].id == s.trucks[i].id
    ensures forall i :: 0 <= i < |r.activeContracts| ==> r.activeContracts[i] in s.activeContracts
    ensures r.contracts == s.contracts
    // the balance gains the rewards paid and loses the daily charge, and exactly
    // the completed contracts leave the active list
    ensures !s.game.paused ==>
      var f := StepFleet(cities, dist, s.activeContracts, TimeAdvance(s.game, deltaTime), s.trucks);
      && r.game.money == s.game.money + TotalReward(f.paid) - Ledger.DailyAccrual(s.game, r.game.time).charge
      && (forall c :: c in r.activeContracts <==> c in s.activeContracts && c.id !in f.completed)
      // in their order and as often as they occurred
      && r.activeContracts == Seqs.Reject(s.activeContracts, ContractId, f.completed)
    // the trucks are the stepped fleet, and the company fields are kept
    ensures !s.game.paused ==>
      r.trucks == StepFleet(cities, dist, s.activeContracts, TimeAdvance(s.game, deltaTime), s.trucks).trucks
    ensures r.game.(time := s.game.time, money := s.game.money, lastInfluenceTime := s.game.lastInfluenceTime) == s.game
  {
    if s.game.paused then s
    else
      var advance := TimeAdvance(s.game, deltaTime);
      assert advance == deltaTime * 60000.0 * s.game.gameSpeed;
      var newTime := s.game.time + advance;
      var accrual := Ledger.DailyAccrual(s.game, newTime);
      var fleet := StepFleet(cities, dist, s.activeContracts, advance, s.trucks);
      s.(game := s.game.(time := newTime,
                         money := s.game.money + fleet.earned - accrual.charge,
                         lastInfluenceTime := Some(accrual.last)),
         trucks := fleet.trucks,
         activeContracts := Seqs.Reject(s.activeContracts, ContractId, fleet.completed))
  }

  /** A travelling truck that does not reach the end of its route keeps its
      status and leg, moves its index forward but not past the route, and is
      paid nothing. It reaches the end only if its budget covers the remaining
      route length, and always does when the budget exceeds it. */
  lemma LegProgress(cities: seq<City>, dist: Distance, active: seq<Contract>, advance: real, t: Truck)
    requires IsTravelling(t)
    requires t.routeIndex.GetOr(0) <= |t.routePath.value|
    ensures var path := t.routePath.value;
      var i := t.routeIndex.GetOr(0);
      var w := WalkOf(dist, t, advance);
      var r := StepTruck(cities, dist, active, advance, t);
      && i <= w.index <= |path|
      && (w.index < |path| ==> r == Step(t.(location := w.pos, routeIndex := Some(w.index)), None))
      && (i < |path| == w.index ==> Budget(t, advance) >= PathLength(dist, t.location, path, i))
      && (Budget(t, advance) > PathLength(dist, t.location, path, i) ==> w.index == |path|)
  {
  }

  /** The end of a deadhead leg whose contract is still active starts the
      cargo leg: the held route becomes the route, its index restarts, the
      truck is placed at its old destination and nothing is paid yet. */
  lemma DeadheadHandOff(cities: seq<City>, dist: Distance, active: seq<Contract>, advance: real, t: Truck, c: Contract)
    requires IsTravelling(t) && t.status == MovingToSource
    requires WalkOf(dist, t, advance).index >= |t.routePath.value|
    requires FindContract(active, t.currentContractId) == Some(c)
    ensures var r := StepTruck(cities, dist, active, advance, t);
      && r.paid.None?
      && r.truck.status == Moving
      && r.truck.routePath == Some(t.pendingRoutePath.GetOr([]))
      && r.truck.pendingRoutePath.None?
      && r.truck.routeIndex == Some(0)
      && r.truck.location == t.destination.GetOr(t.location)
      && r.truck.destination == CityCoordinates(cities, c.destCityId)
      && r.truck.currentContractId == t.currentContractId
  {
  }

  /** The end of a cargo leg, or of a deadhead leg whose contract has gone:
      the truck becomes idle at the last waypoint with its leg cleared (the
      held second leg is kept), and is paid for its contract exactly when it
      holds a non-empty contract id that is still active. */
  lemma LegCompletion(cities: seq<City>, dist: Distance, active: seq<Contract>, advance: real, t: Truck)
    requires IsTravelling(t)
    requires WalkOf(dist, t, advance).index >= |t.routePath.value|
    requires t.status == Moving || FindContract(active, t.currentContractId).None?
    ensures var r := StepTruck(cities, dist, active, advance, t);
      && r.truck.status == Idle
      && r.truck.routePath.None? && r.truck.destination.None? && r.truck.currentContractId.None?
      && r.truck.routeIndex == Some(0)
      && r.truck.pendingRoutePath == t.pendingRoutePath
      && (t.routeIndex.GetOr(0) < |t.routePath.value| ==> r.truck.location == t.routePath.value[|t.routePath.value| - 1])
      && (r.paid.Some? <==> HoldsContract(t) && FindContract(active, t.currentContractId).Some?)
      && (r.paid.Some? ==> r.paid == FindContract(active, t.currentContractId))
  {
  }

  /** A fleet in which no truck gets paid earns nothing and completes nothing. */
  lemma FleetWithoutPayments(cities: seq<City>, dist: Distance, active: seq<Contract>, advance: real, trucks: seq<Truck>)
    requires forall i :: 0 <= i < |trucks| ==> StepTruck(cities, dist, active, advance, trucks[i]).paid.None?
    ensures StepFleet(cities, dist, active, advance, trucks).earned == 0.0
    ensures StepFleet(cities, dist, active, advance, trucks).completed == []
  {
    CollectWithoutPayments(Steps(cities, dist, active, advance, trucks));
  }

  /** The fleet's payments are exactly the trucks' payments: every truck paid
      has its contract recorded, and every recorded contract was paid to some
      truck. */
  lemma FleetRecordsPayments(cities: seq<City>, dist: Distance, active: seq<Contract>, advance: real, trucks: seq<Truck>)
    ensures var f := StepFleet(cities, dist, active, advance, trucks);
      && (forall i :: 0 <= i < |trucks| && StepTruck(cities, dist, active, advance, trucks[i]).paid.Some? ==>
            StepTruck(cities, dist, active, advance, trucks[i]).paid.value in f.paid)
      && (forall j :: 0 <= j < |f.paid| ==>
            exists i :: 0 <= i < |trucks| && StepTruck(cities, dist, active, advance, trucks[i]).paid == Some(f.paid[j]))
      // each contract is recorded as many times as trucks were paid for it
      && (forall c {:trigger multiset(f.paid)[c]} ::
            multiset(f.paid)[c] == CountPaid(Steps(cities, dist, active, advance, trucks), c))
  {
    var steps := Steps(cities, dist, active, advance, trucks);
    var f := Collect(steps);
    CollectRecordsEveryPayment(steps);
    CollectCountsPayments(steps);
    forall j | 0 <= j < |f.paid|
      ensures exists i :: 0 <= i < |trucks| && StepTruck(cities, dist, active, advance, trucks[i]).paid == Some(f.paid[j])
    {
      var i := CollectPaymentSource(steps, j);
      assert StepTruck(cities, dist, active, advance, trucks[i]).paid == Some(f.paid[j]);
    }
  }

  /** A tick credits each paid contract's reward as its contract leaves the
      active list: every contract paid for was active before the tick and is
      not active after it. */
  lemma AdvanceRetiresPaidContracts(cities: seq<City>, dist: Distance, s: State, deltaTime: real)
    requires !s.game.paused
    ensures var r := Advance(cities, dist, s, deltaTime);
      var f := StepFleet(cities, dist, s.activeContracts, TimeAdvance(s.game, deltaTime), s.trucks);
      forall j :: 0 <= j < |f.paid| ==> f.paid[j] in s.activeContracts && f.paid[j] !in r.activeContracts
  {
    var advance := TimeAdvance(s.game, deltaTime);
    var f := StepFleet(cities, dist, s.activeContracts, advance, s.trucks);
    FleetRecordsPayments(cities, dist, s.activeContracts, advance, s.trucks);
    forall j | 0 <= j < |f.paid|
      ensures f.paid[j] in s.activeContracts
    {
      var i :| 0 <= i < |s.trucks| && StepTruck(cities, dist, s.activeContracts, advance, s.trucks[i]).paid == Some(f.paid[j]);
    }
    assert forall j :: 0 <= j < |f.paid| ==> f.completed[j] == f.paid[j].id;
  }

  /** A tick in which no truck is paid changes the balance only by the daily
      loan charge, and leaves the active contracts as they were. */
  lemma AdvanceWithoutPayments(cities: seq<City>, dist: Distance, s: State, deltaTime: real)
    requires !s.game.paused
    requires forall i :: 0 <= i < |s.trucks| ==>
      StepTruck(cities, dist, s.activeContracts, TimeAdvance(s.game, deltaTime), s.trucks[i]).paid.None?
    ensures var r := Advance(cities, dist, s, deltaTime);
      && r.game.money == s.game.money - Ledger.DailyAccrual(s.game, r.game.time).charge
      && r.activeContracts == s.activeContracts
  {
    FleetWithoutPayments(cities, dist, s.activeContracts, TimeAdvance(s.game, deltaTime), s.trucks);
    Seqs.RejectAbsent(s.activeContracts, ContractId, []);
  }

  /** The daily charge of a tick: one day of loan payments once a day has
      passed since the last charge, however many days have passed, and the
      accrual time then moves to the new clock. */
  lemma AdvanceAccrual(cities: seq<City>, dist: Distance, s: State, deltaTime: real)
    requires !s.game.paused
    ensures var r := Advance(cities, dist, s, deltaTime);
      var last := Ledger.LastAccrual(s.game);
      if r.game.time - last >= Ledger.DayMs then
        && Ledger.DailyAccrual(s.game, r.game.time).charge == Ledger.TotalDailyPayment(s.game.loans)
        && r.game.lastInfluenceTime == Some(r.game.time)
      else
        && Ledger.DailyAccrual(s.game, r.game.time).charge == 0.0
        && r.game.lastInfluenceTime == Some(last)
  {
  }

  /** Idle trucks hold neither a route nor a contract before a tick, so they
      hold none after it. */
  lemma AdvanceKeepsIdleUnbound(cities: seq<City>, dist: Distance, s: State, deltaTime: real)
    requires forall i :: 0 <= i < |s.trucks| ==> IdleUnbound(s.trucks[i])
    ensures var r := Advance(cities, dist, s, deltaTime);
      forall i :: 0 <= i < |r.trucks| ==> IdleUnbound(r.trucks[i])
  {
  }

  /** A tick keeps every truck idle exactly when it holds no route and no
      contract. */
  lemma AdvanceKeepsIdleExactlyUnbound(cities: seq<City>, dist: Distance, s: State, deltaTime: real)
    requires forall i :: 0 <= i < |s.trucks| ==> IdleExactlyUnbound(s.trucks[i])
    ensures var r := Advance(cities, dist, s, deltaTime);
      forall i :: 0 <= i < |r.trucks| ==> IdleExactlyUnbound(r.trucks[i])
  {
  }

  /** A state in which the daily charge is not due, the accrual time is
      recorded, and every travelling truck has a recorded index short of its
      route's end is left exactly as it is by a tick of no time. */
  lemma AdvanceByZero(cities: seq<City>, dist: Distance, s: State)
    requires !s.game.paused
    requires s.game.lastInfluenceTime.Some? && s.game.lastInfluenceTime.value != 0.0
    requires s.game.time - s.game.lastInfluenceTime.value < Ledger.DayMs
    requires forall i :: 0 <= i < |s.trucks| && IsTravelling(s.trucks[i]) ==>
      s.trucks[i].routeIndex.Some? && s.trucks[i].routeIndex.value < |s.trucks[i].routePath.value|
    ensures Advance(cities, dist, s, 0.0) == s
  {
    var fleet := StepFleet(cities, dist, s.activeContracts, 0.0, s.trucks);
    forall i | 0 <= i < |s.trucks|
      ensures StepTruck(cities, dist, s.activeContracts, 0.0, s.trucks[i]) == Step(s.trucks[i], None)
    {
      var t := s.trucks[i];
      if IsTravelling(t) {
        assert Budget(t, 0.0) == 0.0;
      }
    }
    FleetWithoutPayments(cities, dist, s.activeContracts, 0.0, s.trucks);
    assert fleet.trucks == s.trucks;
    Seqs.RejectAbsent(s.activeContracts, ContractId, []);
  }
}

=== FILE: types.dfy ===
/** The records of the game (src/types/index.ts). Optional fields are `Option`s;
    money, time, speeds and coordinates are `real`. Cross-entity references are
    string ids resolved through the owning collection. */
module Types {
  import opened Wrappers
  import Seqs

  type Id = string

  datatype Coordinates = Coordinates(lat: real, lng: real)

  datatype City = City(id: Id, name: string, coordinates: Coordinates)

  datatype TruckStatus = Idle | Moving | MovingToSource | Maintenance

  /** A truck. `routeIndex` is the index of the next unvisited waypoint of
      `routePath`; `pendingRoutePath` holds the cargo leg while the truck
      drives the deadhead leg to the pickup city. */
  datatype Truck = Truck(
    id: Id,
    name: string,
    speed: real,
    status: TruckStatus,
    location: Coordinates,
    destination: Option<Coordinates>,
    currentContractId: Option<Id>,
    routePath: Option<seq<Coordinates>>,
    routeIndex: Option<nat>,
    pendingRoutePath: Option<seq<Coordinates>>,
    driverId: Option<Id>,
    condition: real)

  datatype Contract = Contract(
    id: Id,
    sourceCityId: Id,
    destCityId: Id,
    cargo: string,
    reward: real,
    distance: real,
    expiresAt: real)

  datatype Loan = Loan(
    id: Id,
    amount: real,
    interestRate: real,
    dailyPayment: real,
    remainingAmount: real)

  datatype Reputation = Poor | Small | Good | Excellent | Elite

  datatype GameState = GameState(
    money: real,
    time: real,
    paused: bool,
    gameSpeed: real,
    loans: seq<Loan>,
    lastInfluenceTime: Option<real>,
    companyName: string,
    hqLocation: string,
    foundedDate: string,
    reputation: Reputation,
    reputationPoints: real)

  /** The reducer's whole state: the company, the fleet, the marketplace of
      available contracts and the contracts already bound to a truck. */
  datatype State = State(
    game: GameState,
    trucks: seq<Truck>,
    contracts: seq<Contract>,
    activeContracts: seq<Contract>)

  // Keys under which each collection is searched.
  function CityId(c: City): Id { c.id }
  function TruckId(t: Truck): Id { t.id }
  function ContractId(c: Contract): Id { c.id }
  function LoanId(l: Loan): Id { l.id }

  /** The rewards of a list of contracts. */
  function TotalReward(cs: seq<Contract>): real {
    if |cs| == 0 then 0.0 else cs[0].reward + TotalReward(cs[1..])
  }

  function FindCity(cities: seq<City>, id: Id): Option<City> {
    Seqs.Find(cities, CityId, id)
  }

  /** The active contract a truck refers to; a truck without a contract id
      finds nothing, as `c.id === undefined` never holds for a string id. */
  function FindContract(contracts: seq<Contract>, id: Option<Id>): Option<Contract> {
    match id
    case None => None
    case Some(k) => Seqs.Find(contracts, ContractId, k)
  }

  /** The coordinates of the city with the given id, if it is catalogued
      (the `CITIES.find(...)?.coordinates` of the source). */
  function CityCoordinates(cities: seq<City>, id: Id): Option<Coordinates> {
    match FindCity(cities, id)
    case None => None
    case Some(c) => Some(c.coordinates)
  }
}

=== FILE: wrappers.dfy ===
/** The optional values of the game's records: a TypeScript field declared
    with `?` (or a lookup that may come back `undefined`) is an `Option`. */
module Wrappers {

  datatype Option<+T> = None | Some(value: T) {

    /** The value, or `default` when absent: the `x || default` and `x ?? default`
        idiom of the source for values that are never falsy when present. */
    function GetOr(default: T): T {
      match this
      case Some(v) => v
      case None => default
    }
  }
}
